=== FILE: README.md ===
# Offer chain: a Dafny model

This project models the core of a small affiliate "offer chain" web
application. A visitor is shown a chain of offers one at a time. Each
decline, accept or view is logged as an action against a lead, and the lead
is identified by a network fingerprint. Administrators manage the offer
catalogue behind HTTP Basic authentication and watch a dashboard.

The server side is a set of route handlers over a relational database. Here
each handler is a pure function from a `Model.Store` and a request to a new
store and a `Common.Reply`, where a reply is either `Ok(data)` or
`Fail(status, error)`. The store holds offers, leads and actions in insertion
order, one identifier counter `nextId`, and a monotone `clock` that stands
for `createdAt`. The invariant `Model.Valid` keeps identifiers unique and
below the counter. It keeps action timestamps strictly increasing along the
ledger, and every action's lead and offer references resolved.

The client side appears as pure state transitions:

- the chain container's decline/accept/view logic and screen selection;
- the session hook's `trackAction` and `initializeSession`;
- the progress bar;
- the admin dashboard's derived statistics and display rules.

A network call the client makes is a `Common.Fetch` value: either the body
it returned or the message it threw.

Modules:

- `Common`: options, identifiers, JavaScript truthiness of optional strings, HTTP statuses, replies.
- `Text`: `split` on one separator with its inverse `Join`; `trim` over the ECMAScript white-space set.
- `Model`: offers, leads, actions, the store and its invariant.
- `Db`: the error-code-to-message mapping.
- `Leads`: fingerprinting and `/api/leads`.
- `Actions`: `/api/actions`.
- `Auth`: the admin gate and `createAuthHeader`.
- `PositionOrder`: sorting by position.
- `Offers`: the public listing.
- `AdminOffers`: the admin listing and offer creation.
- `Reorder`: the atomic renumbering.
- `Session`: the session hook.
- `Chain`: the chain container.
- `Progress`: the progress bar.
- `Dashboard`: the admin dashboard.

## Model

| member | source | states |
|---|---|---|
| Text.Split | src/lib/auth.js:30 | `split` on one character: never empty, no piece contains the separator, and joining the pieces gives back the input |
| Text.SplitJoin | src/lib/auth.js:30 | splitting the join of separator-free pieces gives back exactly those pieces |
| Text.Trim | src/app/api/leads/route.js:13 | `trim` yields a string with no leading or trailing white space that is the input minus white-space padding |
| Text.TrimPadded | src/app/api/leads/route.js:13 | trimming white space + trimmed text + white space gives back the text |
| Text.TrimIdempotent | src/app/api/leads/route.js:13 | trimming twice is trimming once |
| Model.ParseType | src/app/api/actions/route.js:29-30 | a type name is accepted iff it is one of PATH_VIEW, PATH_DECLINE, PATH_SUBMIT, and it parses to the kind of that name |
| Model.ParseTypeName | src/app/api/actions/route.js:29-30 | every action kind's name parses back to that kind |
| Model.FindOffer | src/app/api/admin/offers/reorder/route.js:29-30 | lookup by offer id finds a stored offer with that id, or reports that no offer has it |
| Model.EmptyValid | prisma/seed.js:82-85 | the cleared database (no offers, leads or actions) satisfies the store invariant |
| Db.HandleDbError | src/lib/db.js:13-25 | P2002 maps to "Record already exists" and P2025 to "Record not found", each iff that code; any other code or none maps to "Database operation failed" |
| Leads.ClientIp | src/app/api/leads/route.js:7-22 | a non-empty forwarded-for header gives a trimmed fingerprint; otherwise a non-empty real-ip header is used verbatim; otherwise 127.0.0.1 |
| Leads.ClientIpFirstForwarded | src/app/api/leads/route.js:12-14 | the fingerprint is the first comma-separated entry of forwarded-for, with white space removed, whatever follows and whatever real-ip says |
| Leads.ClientIpSingleForwarded | src/app/api/leads/route.js:12-14 | a forwarded-for header with a single entry yields that entry, trimmed |
| Leads.FindLead | src/app/api/leads/route.js:29-33 | lookup returns the first index whose lead has the fingerprint, or none when no lead has it |
| Leads.Resolve | src/app/api/leads/route.js:29-44 | an existing fingerprint returns its first lead and changes nothing; a new one appends exactly one lead with that fingerprint, a fresh id and the current time |
| Leads.ResolveFinds | src/app/api/leads/route.js:29-41 | after lookup-then-create, the first lead with the fingerprint is the one returned |
| Leads.ResolveValid | src/app/api/leads/route.js:36-41 | lookup-then-create keeps the store invariant |
| Leads.PostLead | src/app/api/leads/route.js:24-52 | POST always succeeds; it returns the first matching lead and leaves the store unchanged, or appends exactly one lead and returns its id; `isNewLead` is false on every path (as written) |
| Leads.PostLeadIntended | src/app/api/leads/route.js:46-52 | the corrected response: the same store and lead id as POST, with `isNewLead` true iff the call created the lead |
| Leads.FirstVisitReportedAsReturning | src/app/api/leads/route.js:50 | on an empty database the first POST creates a lead but reports `isNewLead` false, where the corrected response reports true |
| Leads.GetLead | src/app/api/leads/route.js:65-90 | GET is 404 "Lead not found" iff no lead has the fingerprint; otherwise it returns the first such lead's id |
| Leads.GetOrCreateLead | src/services/apiService.js:23-46 | the client's GET-then-POST fallback ends with the same store and lead id as a bare POST |
| Leads.PostLeadIdempotent | src/app/api/leads/route.js:29-41 | two POSTs with the same headers return the same lead id, and the second changes nothing |
| Leads.PostThenGetLead | src/app/api/leads/route.js:69-90 | after a POST, a GET with the same headers returns the lead the POST returned |
| Leads.PostLeadValid | src/app/api/leads/route.js:36-41 | lead resolution keeps the store invariant |
| Actions.StoredPosition | src/app/api/actions/route.js:62 | an offer position is stored iff it was sent and is non-zero, and then unchanged |
| Actions.StoredSessionId | src/app/api/actions/route.js:60 | a session id is stored iff it is a non-empty string, and then unchanged |
| Actions.PostAction | src/app/api/actions/route.js:5-86 | precedence: 400 for missing fields, then 400 for an unknown type, then 404 for an unknown lead, then 500 for an unknown offer; any failure leaves the store unchanged; success iff every check passes, and it appends exactly one action with the given lead and type, null for falsy optional fields, and returns its id, type and timestamp |
| Actions.PostActionValid | src/app/api/actions/route.js:56-65 | logging an action keeps the store invariant |
| Actions.Select | src/app/api/actions/route.js:95-103 | an action is kept iff it matches every given filter; an absent filter does not constrain |
| Actions.SelectAppend | src/app/api/actions/route.js:95-103 | a matching action appended to the ledger becomes the last one selected, after the earlier matches |
| Actions.Newest | src/app/api/actions/route.js:105-110 | the matching actions in reverse ledger order, cut to the first 100 |
| Actions.NewestMatch | src/app/api/actions/route.js:95-106 | every action read comes from the ledger and matches the filter |
| Actions.NewestOrder | src/app/api/actions/route.js:107-109 | the result is strictly decreasing in creation time |
| Actions.NewestComplete | src/app/api/actions/route.js:105-110 | when at most 100 actions match, every one of them is read |
| Actions.NewestKeepsNewest | src/app/api/actions/route.js:107-110 | any matching action left out is older than every action read |
| Actions.NewestFirst | src/app/api/actions/route.js:105-110 | on a valid store: matching, newest first, complete up to the cap, and the cap drops only the oldest |
| Actions.Summarize | src/app/api/actions/route.js:111-118 | a row carries its action, and an offer summary iff the action names a stored offer; that summary is the title and position of a stored offer with that id |
| Actions.GetActions | src/app/api/actions/route.js:89-125 | GET always succeeds with at most 100 rows, `count` equal to the number of rows, and row i the summary of the i-th newest match |
| Actions.PostThenGetNewest | src/app/api/actions/route.js:56-110 | a logged action is the first row of the next GET filtered by its lead |
| Auth.ValidUsername | src/lib/auth.js:33 | the admin user name is the configured one when non-empty; otherwise `admin` |
| Auth.ValidPassword | src/lib/auth.js:34 | the admin password is the configured one when non-empty; otherwise `admin123` |
| Auth.CredentialToken | src/lib/auth.js:18-19 | no token without a space; otherwise the token is the text after the first space up to the next space or the end, and only when that text is non-empty |
| Auth.UserPart | src/lib/auth.js:30 | the user name is the decoded text before the first colon, or all of it when there is no colon |
| Auth.PasswordPart | src/lib/auth.js:30 | no password without a colon; otherwise the password is the text after the first colon up to the next colon or the end |
| Auth.CheckAdminAuth | src/lib/auth.js:4-48 | a missing header gives 401 "Authorization header required"; a header without a token gives 401 "Invalid authorization format"; otherwise access iff both decoded fields equal the configured pair, else 401 "Invalid credentials" |
| Auth.TokenAfterAnyScheme | src/lib/auth.js:18 | the scheme word is never checked: any space-free scheme followed by a token yields that token |
| Auth.CredentialFields | src/lib/auth.js:30 | `u:p` and `u:p:rest` both decode to user name u and password p |
| Auth.CreateAuthHeader | src/lib/auth.js:51-54 | the header starts with `Basic `; with a Base64-like codec the gate reads the encoded `username:password` back as the token, and on ASCII text that token decodes to the pair |
| Auth.DecodedFields | src/lib/auth.js:30-36 | decoded credentials whose fields are `u` and `p` begin with `u:p`, followed by the end or another colon |
| Auth.CreatedHeaderAccepted | src/lib/auth.js:51-54 | a header built by `createAuthHeader` from the configured colon-free ASCII pair is accepted |
| Auth.DefaultCredentialsAccepted | src/lib/auth.js:33-36 | with neither variable set, the header built from `admin` / `admin123` is accepted, and any accepted header decodes to the user name `admin` |
| Auth.PasswordTruncatedAtColon | src/lib/auth.js:29-36 | credentials with an extra `:rest` after the right password are still accepted, unlike section 2 of RFC 7617 |
| Auth.ColonInCredentialLocksOut | src/lib/auth.js:30-36 | when the configured user name or password contains a colon, no header is ever accepted |
| Auth.AcceptedCredentials | src/lib/auth.js:36-47 | an accepted header has a token whose decoded user name and password are the configured pair |
| PositionOrder.Insert | src/app/api/offers/route.js:11-13 | inserting into a position-sorted list keeps it sorted and adds exactly that offer |
| PositionOrder.SortByPosition | src/app/api/offers/route.js:11-13 | the result is non-decreasing by position and a permutation of the input |
| Offers.ActiveOnly | src/app/api/offers/route.js:8-10 | an offer is kept iff it is stored and active |
| Offers.ProjectedActive | src/app/api/offers/route.js:7-22 | projecting a permutation of the active offers lists exactly the projections of the active offers |
| Offers.ListActive | src/app/api/offers/route.js:5-28 | the public listing holds only active offers, every active offer, non-decreasing by position, projected to the public fields, with `count` equal to its length |
| AdminOffers.ActionCountZero | src/app/api/admin/offers/route.js:16-22 | the count is zero iff no action names the offer |
| AdminOffers.ListAll | src/app/api/admin/offers/route.js:7-29 | an auth denial is returned as is; otherwise all offers, active or not, non-decreasing by position, each with its action count and `count` equal to the length |
| AdminOffers.MaxPosition | src/app/api/admin/offers/route.js:65-68 | the largest position among the offers |
| AdminOffers.NextPosition | src/app/api/admin/offers/route.js:64-69 | the default position exceeds every stored position; it is the maximum plus one, or 1 for an empty catalogue |
| AdminOffers.Create | src/app/api/admin/offers/route.js:43-84 | auth first; 400 when a text field is empty, store unchanged; otherwise one active offer appended with the given fields, a non-zero position verbatim, else `NextPosition` (one past the highest position, or 1 on an empty catalogue) |
| AdminOffers.CreateValid | src/app/api/admin/offers/route.js:71-79 | creating an offer keeps the store invariant |
| AdminOffers.DefaultPositionsIncrease | src/app/api/admin/offers/route.js:64-69 | two creations without a position get strictly increasing positions |
| AdminOffers.PostActionCounts | src/app/api/admin/offers/route.js:16-22 | logging an action raises its offer's count by one and leaves other offers' counts unchanged |
| Reorder.ApplyAll | src/app/api/admin/offers/reorder/route.js:27-34 | the updates run in sequence and keep the number of offers |
| Reorder.LastIndex | src/app/api/admin/offers/reorder/route.js:28 | the last index at which an id appears in the list |
| Reorder.ApplyAllFinal | src/app/api/admin/offers/reorder/route.js:27-34 | after all updates, a listed offer has 1 + its last index in the list, and an unlisted one is unchanged |
| Reorder.DistinctPositions | src/app/api/admin/offers/reorder/route.js:28-31 | with distinct ids, the offer named at index i gets position i + 1 |
| Reorder.ReorderChecked | src/app/api/admin/offers/reorder/route.js:11-49 | 400 for a non-array or empty list; 500 and no change when any id is unknown; otherwise one returned offer per id, the i-th being that offer at position i + 1 |
| Reorder.ReorderOffers | src/app/api/admin/offers/reorder/route.js:7-9 | an auth denial is returned before any store access; otherwise the reply and store of the transaction `Reorder.ReorderChecked` |
| Reorder.ReorderValid | src/app/api/admin/offers/reorder/route.js:27-34 | reordering keeps the store invariant |
| Reorder.ReorderListedPositions | src/app/api/admin/offers/reorder/route.js:27-34 | after a successful reorder with distinct ids, the offer named at index i has position i + 1 |
| Reorder.ReorderUnlistedUnchanged | src/app/api/admin/offers/reorder/route.js:27-34 | after a successful reorder, offers not listed are unchanged and listed ones differ only in position |
| Session.InitializeSession | src/hooks/useUserSession.js:12-36 | loading ends false on both paths; success records the lead, failure records the error message |
| Session.Enrich | src/hooks/useUserSession.js:49-56 | the caller's metadata keys are kept except the five enriched keys, which are overwritten with the session and browser values |
| Session.TrackAction | src/hooks/useUserSession.js:42-77 | no call without a lead; otherwise one call with lead, type, offer and position passed unchanged; a failed call is swallowed |
| Session.ToRequest | src/services/apiService.js:49-63 | the request body carries no top-level session id |
| Session.Deliver | src/services/apiService.js:49-75 | delivering a call is POST `/api/actions`, and the call resolves iff that POST succeeds |
| Session.SessionOnlyInMetadata | src/hooks/useUserSession.js:49-64 | a logged action's session column is null while its metadata carries the session id |
| Chain.CurrentOffer | src/components/OfferChainContainer.jsx:20 | there is a current offer iff the index is within the list, and it is the offer at that index |
| Chain.FetchOffers | src/components/OfferChainContainer.jsx:24-40 | loading ends false; success replaces the offers, failure records the message and keeps them |
| Chain.FetchOffersInRange | src/components/OfferChainContainer.jsx:12-40 | from index 0, or after a failed fetch from an in-range state, the index is in range once offers load |
| Chain.Advance | src/components/OfferChainContainer.jsx:43-69 | without a current offer nothing happens; otherwise one event for the current offer at step index + 1, then the index moves to (index + 1) mod n |
| Chain.HandleDecline | src/components/OfferChainContainer.jsx:43-51 | a decline emits PATH_DECLINE, never redirects, and advances |
| Chain.HandleAccept | src/components/OfferChainContainer.jsx:54-69 | an accept emits PATH_SUBMIT, hands the visitor the current offer's affiliate URL (shown in an alert) iff there is one, and advances |
| Chain.RefusedLogStillAdvances | src/hooks/useUserSession.js:74-76 | when the ledger refuses the logged call, `trackAction` swallows the failure with no result, and the chain still moves to the next offer exactly as on success |
| Chain.AdvanceInRange | src/components/OfferChainContainer.jsx:49 | advancing keeps the index in range and the offer list unchanged |
| Chain.DeclineStep | src/components/OfferChainContainer.jsx:43-50 | one decline on a non-empty chain moves the index to (index + 1) mod n and changes nothing else |
| Chain.DeclinesIndex | src/components/OfferChainContainer.jsx:49 | k declines move the index to (index + k) mod n |
| Chain.DeclineCycle | src/components/OfferChainContainer.jsx:49 | n declines return the chain to where it started |
| Chain.ViewCall | src/components/OfferChainContainer.jsx:72-76 | when the view effect runs, it emits a view iff there is a current offer, a lead, and neither session nor offers are loading; the view is for the current offer at the current step |
| Chain.InitialScreens | src/components/OfferChainContainer.jsx:78-89 | the chain first shows "Initializing session...", then "Loading offers..." once the session settles, either way, while the offers fetch is still pending |
| Chain.Render | src/components/OfferChainContainer.jsx:78-119 | loading beats error, error beats empty, empty beats the offer screen; loading says "Initializing session..." while the session loads, else "Loading offers..."; the offer screen shows the current offer at its step out of n |
| Chain.ProgressMatchesChain | src/components/OfferChainContainer.jsx:124-127 | for up to ten offers, the progress bar shows one circle per offer, the current one active and the earlier ones completed |
| Chain.StepLogged | src/components/OfferChainContainer.jsx:46 | when lead and offer exist, the event a step emits is accepted by `/api/actions` and stored with its kind, offer and one-based step |
| Progress.Shown | src/components/ProgressChain.jsx:2-22 | the number of circles is min(totalSteps, 10), with totalSteps defaulting to 10 |
| Progress.Circles | src/components/ProgressChain.jsx:22-65 | circle k is active iff k is the current step, completed iff k is earlier, shows a check mark iff completed and otherwise its number, and has a connector iff it is not the last |
| Progress.ShowEllipsis | src/components/ProgressChain.jsx:70 | the ellipsis shows iff totalSteps exceeds 10 |
| Progress.AtMostOneActive | src/components/ProgressChain.jsx:23-25 | at most one circle is active, and no circle is both active and completed |
| Progress.BeyondShownAllCompleted | src/components/ProgressChain.jsx:22-42 | past step 10 every shown circle is completed and none is active |
| Progress.ConnectorsBetween | src/components/ProgressChain.jsx:52 | a connector after every circle but the last makes one fewer connector than circles |
| Progress.CircleConnectors | src/components/ProgressChain.jsx:52 | the progress bar has min(totalSteps, 10) - 1 connectors, or none when it is empty |
| Dashboard.DistinctLeadsBound | src/app/admin/dashboard/page.js:55 | there are never more distinct leads than action rows |
| Dashboard.StatsOf | src/app/admin/dashboard/page.js:50-56 | totalOffers is the number of offers; totalActions and totalLeads count the action rows and their distinct leads, or are 0 when the actions read failed |
| Dashboard.InitialLoad | src/app/admin/dashboard/page.js:16-65 | from the initial state, the first load ends loading and shows the error banner exactly when a fetch threw |
| Dashboard.FetchAllData | src/app/admin/dashboard/page.js:33-65 | loading ends false; a thrown fetch sets the error and keeps the data; data and stats change only when the offers reply succeeded |
| Dashboard.StatsBounded | src/app/admin/dashboard/page.js:53-55 | fed by the actions endpoint, totalLeads <= totalActions <= 100 |
| Dashboard.RecentActivity | src/app/admin/dashboard/page.js:282 | recent activity is the first min(10, n) actions |
| Dashboard.ActionLog | src/app/admin/dashboard/page.js:420 | the action log is the first min(50, n) actions |
| Dashboard.ToggleOfferStatus | src/app/admin/dashboard/page.js:112 | the toggle sends the negation of the current status |
| Dashboard.BadgeFor | src/app/admin/dashboard/page.js:286-288 | PATH_VIEW is blue and PATH_DECLINE yellow, each iff that name; anything else is green |
| Dashboard.BadgeDistinguishesKinds | src/app/admin/dashboard/page.js:286-288 | the three action kinds get three different badges |

## Left out

- Framework and ORM plumbing is not modelled: the database client singleton, response objects, JSON body parsing and header access. Each handler is one atomic transition on the store.
- Database and request-parsing failures other than the ones named below are not modelled. The generic 500 replies ("Failed to process lead", "Failed to fetch lead", "Failed to fetch actions", "Failed to fetch offers", "Failed to create offer") arise only from such failures; "Failed to create offer" also covers a request body that is not valid JSON.
- The database schema file is not part of this model. Two behaviours of the ledger are assumed:
  - an action naming an unknown offer is refused by a foreign key and surfaces as the 500 "Failed to log action";
  - an actions read filtered by an unknown type name matches nothing.
- Base64 is an opaque `Auth.Codec` pair. Its round trip on ASCII text is a named assumption (`Auth.Base64Like`) required by the lemmas that need it. The byte-level algorithm of section 4 of RFC 4648 and the ascii/utf8 decoding mismatch are not modelled.
- Session identifiers built from the clock and a random number are not modelled; they are a parameter of `Session.InitializeSession`. Browser-side values (timestamp, user agent, URL, referrer) are parameters too, in `Session.Browser`.
- `createdAt` is the store's monotone `clock`, not wall-clock time.
- Concurrency is not modelled. This covers concurrent lead requests racing between lookup and create, React effect interleaving, and telemetry completing out of order.
- The fetch wrappers of the API service are modelled only through `Leads.GetOrCreateLead` and `Session.Deliver`. The generic request helpers are not modelled.
- Markup-only components are not modelled: the offer card and the layouts. The offer form modal is also left out, because its input parsing would need a model of JavaScript `parseInt`.
- The seed script is not modelled; it is I/O.
- Admin update and delete by id, and the cascade deletion of actions, are not modelled. They belong to the per-offer route, which is outside this core.
- PositionOrder.SortByPosition: offers with equal positions come out in an order the model leaves unspecified. The database does not promise a tie order either.
- Offers.ListActive: states membership both ways and the length, but not that each active offer appears exactly once as a multiset.
- An out-of-range chain index is not reachable: `Chain.FetchOffersInRange` and `Chain.AdvanceInRange` keep the index inside the list. If it were out of range, `Chain.Render` would show an offer screen with no offer, where the component would throw on reading the title.
- Chain.ViewCall: states what the view effect sends when it runs, not when it runs. React re-runs the effect only when the index, the current offer, the lead or a loading flag changes. So in a one-offer chain a decline or accept (index 0 to 0, same offer) sends no second view, which the model does not capture.
- Chain.HandleAccept: the `redirect` field is the affiliate URL the component shows in an alert; no navigation happens, since the `window.open` call is commented out.
- The progress bar's colours and class names are not modelled. Only the active/completed/mark/connector classification is (`Progress.Circles`).
- The dashboard's create, edit, delete and reorder requests are not modelled. Of the status toggle, only the request payload is (`Dashboard.ToggleOfferStatus`).

## Findings

| source | as written | input that shows it | evidently intended | confidence | as-written member | corrected member |
|---|---|---|---|---|---|---|
| src/app/api/leads/route.js:50 | `isNewLead: !lead` is evaluated after `lead` has been assigned, so it is false on every path | the first POST to an empty database creates a lead and reports `isNewLead: false` | `isNewLead` true exactly when this request created the lead | high; not executed | Leads.PostLead (shown by Leads.FirstVisitReportedAsReturning) | Leads.PostLeadIntended |

=== FILE: actions.dfy ===
/** The action ledger (`/api/actions`): validated appends of typed events and
    a filtered, newest-first, capped read. */
module Actions {
  import opened Common
  import opened Model

  const RequiredMessage: string := "leadId and actionType are required"
  const InvalidTypeMessage: string := "Invalid actionType. Must be: PATH_VIEW, PATH_DECLINE, or PATH_SUBMIT"
  const LeadNotFound: string := "Lead not found"
  const LogFailed: string := "Failed to log action"

  /** Largest number of actions one read returns. */
  const ReadCap: nat := 100

  /** The POST body. A field the client left out, sent as `null`, or sent as
      an empty identifier is `None`; strings keep their text, empty or not. */
  datatype ActionRequest = ActionRequest(
    leadId: Option<Id>,
    actionType: Option<string>,
    sessionId: Option<string>,
    offerId: Option<Id>,
    offerPosition: Option<int>,
    metadata: Option<Meta>)

  /** The POST success body. */
  datatype ActionReceipt = ActionReceipt(actionId: Id, actionType: ActionType, timestamp: nat)

  /** `x || null` for the optional columns: a falsy value is stored as null.
      A position of 0 is falsy; an object (metadata) never is. */
  function StoredPosition(p: Option<int>): (r: Option<int>)
    ensures r.Some? <==> p.Some? && p.value != 0
    ensures r.Some? ==> r == p
  {
    if p.Some? && p.value != 0 then p else None
  }

  function StoredSessionId(sid: Option<string>): (r: Option<string>)
    ensures r.Some? <==> Truthy(sid)
    ensures r.Some? ==> r == sid
  {
    if Truthy(sid) then sid else None
  }

  /** POST `/api/actions`. Checks, in this order: both required fields are
      present (400), the type is one of the three kinds (400), the lead exists
      (404); the ledger's foreign key to offers then rejects an unknown offer
      (500). Only a request that passes every check appends, and it appends
      exactly one action, stamped with the store's clock. */
  function PostAction(s: Store, req: ActionRequest): (out: Handled<ActionReceipt>)
    ensures out.reply.Fail? ==> out.store == s
    ensures !(req.leadId.Some? && Truthy(req.actionType)) ==>
              out.reply == Fail(StatusBadRequest, RequiredMessage)
    ensures req.leadId.Some? && Truthy(req.actionType) && ParseType(req.actionType.value).None? ==>
              out.reply == Fail(StatusBadRequest, InvalidTypeMessage)
    ensures req.leadId.Some? && Truthy(req.actionType) && ParseType(req.actionType.value).Some?
            && req.leadId.value !in LeadIds(s.leads) ==>
              out.reply == Fail(StatusNotFound, LeadNotFound)
    ensures req.leadId.Some? && Truthy(req.actionType) && ParseType(req.actionType.value).Some?
            && req.leadId.value in LeadIds(s.leads)
            && req.offerId.Some? && req.offerId.value !in OfferIds(s.offers) ==>
              out.reply == Fail(StatusServerError, LogFailed)
    ensures out.reply.Ok? <==>
              && req.leadId.Some? && req.actionType.Some?
              && req.actionType.value in {"PATH_VIEW", "PATH_DECLINE", "PATH_SUBMIT"}
              && req.leadId.value in LeadIds(s.leads)
              && (req.offerId.Some? ==> req.offerId.value in OfferIds(s.offers))
    ensures out.reply.Ok? ==>
              && |out.store.actions| == |s.actions| + 1
              && out.store.actions[..|s.actions|] == s.actions
              && out.store.offers == s.offers && out.store.leads == s.leads
              && var a := out.store.actions[|s.actions|];
                 && a.actionId == s.nextId && a.createdAt == s.clock
                 && a.leadId == req.leadId.value
                 && TypeName(a.actionType) == req.actionType.value
                 && a.sessionId == StoredSessionId(req.sessionId)
                 && a.offerId == req.offerId
                 && a.offerPosition == StoredPosition(req.offerPosition)
                 && a.metadata == req.metadata
                 && out.reply.data == ActionReceipt(a.actionId, a.actionType, a.createdAt)
  {
    if req.leadId.None? || !Truthy(req.actionType) then
      Handled(s, Fail(StatusBadRequest, RequiredMessage))
    else if ParseType(req.actionType.value).None? then
      Handled(s, Fail(StatusBadRequest, InvalidTypeMessage))
    else if req.leadId.value !in LeadIds(s.leads) then
      Handled(s, Fail(StatusNotFound, LeadNotFound))
    else if req.offerId.Some? && req.offerId.value !in OfferIds(s.offers) then
      Handled(s, Fail(StatusServerError, LogFailed))
    else
      var a := Action(
        s.nextId, req.leadId.value, ParseType(req.actionType.value).value,
        StoredSessionId(req.sessionId), req.offerId,
        StoredPosition(req.offerPosition), req.metadata, s.clock);
      var s' := s.(actions := s.actions + [a], nextId := s.nextId + 1, clock := s.clock + 1);
      assert s'.actions[..|s.actions|] == s.actions;
      Handled(s', Ok(ActionReceipt(a.actionId, a.actionType, a.createdAt)))
  }

  /** Appending an action keeps the database invariants. */
  lemma PostActionValid(s: Store, req: ActionRequest)
    requires Valid(s)
    ensures Valid(PostAction(s, req).store)
  {
    var out := PostAction(s, req);
    if out.reply.Ok? {
      var acts := out.store.actions;
      assert forall i :: 0 <= i < |s.actions| ==> acts[i] == s.actions[i];
    }
  }

  /** The query-string filter of GET. An absent or empty parameter does not
      constrain. */
  datatype ActionFilter = ActionFilter(leadId: Option<Id>, actionType: Option<string>)

  predicate Matches(f: ActionFilter, a: Action) {
    && (f.leadId.Some? ==> a.leadId == f.leadId.value)
    && (Truthy(f.actionType) ==> TypeName(a.actionType) == f.actionType.value)
  }

  predicate Increasing(acts: seq<Action>) {
    forall i, j :: 0 <= i < j < |acts| ==> acts[i].createdAt < acts[j].createdAt
  }

  predicate Decreasing(acts: seq<Action>) {
    forall i, j :: 0 <= i < j < |acts| ==> acts[i].createdAt > acts[j].createdAt
  }

  /** The matching actions, in ledger order. */
  function Select(acts: seq<Action>, f: ActionFilter): (r: seq<Action>)
    ensures forall a :: a in r <==> a in acts && Matches(f, a)
    ensures |r| <= |acts|
    ensures Increasing(acts) ==> Increasing(r)
    decreases |acts|
  {
    if |acts| == 0 then []
    else
      var rest := Select(acts[1..], f);
      assert forall a :: a in acts <==> a == acts[0] || a in acts[1..];
      if Matches(f, acts[0]) then
        IncreasingHead(acts);
        [acts[0]] + rest
      else rest
  }

  /** In an increasing ledger the first action is older than all the others. */
  lemma IncreasingHead(acts: seq<Action>)
    requires |acts| > 0
    ensures Increasing(acts) ==> forall a :: a in acts[1..] ==> acts[0].createdAt < a.createdAt
  {
    if Increasing(acts) {
      forall a | a in acts[1..]
        ensures acts[0].createdAt < a.createdAt
      {
        var k :| 0 <= k < |acts| - 1 && acts[1..][k] == a;
        assert acts[k + 1] == a;
      }
    }
  }

  function Reverse(acts: seq<Action>): (r: seq<Action>)
    ensures |r| == |acts|
    ensures forall i :: 0 <= i < |r| ==> r[i] == acts[|acts| - 1 - i]
  {
    if |acts| == 0 then [] else Reverse(acts[1..]) + [acts[0]]
  }

  /** An offer as joined onto an action row for display. */
  datatype OfferSummary = OfferSummary(title: string, position: int)

  /** One row of the GET answer: the action with its offer's title and
      position, when the action names an offer that exists. */
  datatype ActionRow = ActionRow(action: Action, offer: Option<OfferSummary>)

  function Summarize(offers: seq<Offer>, a: Action): (row: ActionRow)
    ensures row.action == a
    ensures row.offer.Some? <==> a.offerId.Some? && a.offerId.value in OfferIds(offers)
    ensures row.offer.Some? ==>
              exists o :: o in offers && Some(o.offerId) == a.offerId
                          && row.offer.value == OfferSummary(o.title, o.position)
  {
    if a.offerId.None? then ActionRow(a, None)
    else match FindOffer(offers, a.offerId.value)
      case None => ActionRow(a, None)
      case Some(o) => ActionRow(a, Some(OfferSummary(o.title, o.position)))
  }

  /** The matching actions newest first (reverse ledger order), at most 100. */
  function Newest(acts: seq<Action>, f: ActionFilter): (r: seq<Action>)
    ensures var sel := Select(acts, f);
            && |r| == (if |sel| <= ReadCap then |sel| else ReadCap)
            && forall i :: 0 <= i < |r| ==> r[i] == sel[|sel| - 1 - i]
  {
    var newest := Reverse(Select(acts, f));
    if |newest| <= ReadCap then newest else newest[..ReadCap]
  }

  /** Every action read matches the filter and comes from the ledger. */
  lemma NewestMatch(acts: seq<Action>, f: ActionFilter)
    ensures forall i :: 0 <= i < |Newest(acts, f)| ==>
              Newest(acts, f)[i] in acts && Matches(f, Newest(acts, f)[i])
  {
    var sel := Select(acts, f);
    var r := Newest(acts, f);
    forall i | 0 <= i < |r|
      ensures r[i] in acts && Matches(f, r[i])
    {
      assert r[i] in sel;
    }
  }

  lemma NewestOrder(acts: seq<Action>, f: ActionFilter)
    requires Increasing(acts)
    ensures Decreasing(Newest(acts, f))
  {
    assert Increasing(Select(acts, f));
  }

  /** Reversal keeps exactly the same actions. */
  lemma {:induction false} ReverseMembers(acts: seq<Action>)
    ensures forall a :: a in Reverse(acts) <==> a in acts
    decreases |acts|
  {
    if |acts| > 0 {
      ReverseMembers(acts[1..]);
      assert acts == [acts[0]] + acts[1..];
    }
  }

  lemma NewestComplete(acts: seq<Action>, f: ActionFilter)
    requires |Select(acts, f)| <= ReadCap
    ensures forall a :: a in acts && Matches(f, a) ==> a in Newest(acts, f)
  {
    ReverseMembers(Select(acts, f));
  }

  lemma NewestKeepsNewest(acts: seq<Action>, f: ActionFilter)
    requires Increasing(acts)
    ensures var r := Newest(acts, f);
            forall a, i :: a in acts && Matches(f, a) && 0 <= i < |r| && a.createdAt > r[i].createdAt
              ==> a in r[..i]
  {
    var sel := Select(acts, f);
    assert Increasing(sel);
    var r := Newest(acts, f);
    forall a, i | a in acts && Matches(f, a) && 0 <= i < |r| && a.createdAt > r[i].createdAt
      ensures a in r[..i]
    {
      assert a in sel;
      var k :| 0 <= k < |sel| && sel[k] == a;
      var j := |sel| - 1 - k;
      assert r[i] == sel[|sel| - 1 - i];
      assert j < i;
      assert r[..i][j] == a;
    }
  }

  /** Under the database invariants the read is strictly newest-first, holds
      every matching action when at most 100 match, and otherwise leaves out
      only actions older than everything it returns. */
  lemma NewestFirst(s: Store, f: ActionFilter)
    requires Valid(s)
    ensures var r := Newest(s.actions, f);
            && (forall i :: 0 <= i < |r| ==> r[i] in s.actions && Matches(f, r[i]))
            && Decreasing(r)
            && (|Select(s.actions, f)| <= ReadCap ==>
                  forall a :: a in s.actions && Matches(f, a) ==> a in r)
            && (forall a, i :: a in s.actions && Matches(f, a) && 0 <= i < |r| && a.createdAt > r[i].createdAt
                  ==> a in r[..i])
  {
    assert Increasing(s.actions);
    NewestMatch(s.actions, f);
    NewestOrder(s.actions, f);
    if |Select(s.actions, f)| <= ReadCap {
      NewestComplete(s.actions, f);
    }
    NewestKeepsNewest(s.actions, f);
  }

  /** The GET success body. */
  datatype ActionList = ActionList(data: seq<ActionRow>, count: nat)

  /** GET `/api/actions`: the matching actions newest first, at most 100,
      each joined with its offer; `count` is the number of rows. */
  function GetActions(s: Store, f: ActionFilter): (r: Reply<ActionList>)
    ensures r.Ok?
    ensures r.data.count == |r.data.data| <= ReadCap
    ensures |r.data.data| == |Newest(s.actions, f)|
    ensures forall i :: 0 <= i < |r.data.data| ==>
              r.data.data[i] == Summarize(s.offers, Newest(s.actions, f)[i])
  {
    var kept := Newest(s.actions, f);
    var rows := seq(|kept|, i requires 0 <= i < |kept| => Summarize(s.offers, kept[i]));
    Ok(ActionList(rows, |rows|))
  }

  /** A matching action appended to the ledger is the last one selected. */
  lemma {:induction false} SelectAppend(acts: seq<Action>, a: Action, f: ActionFilter)
    requires Matches(f, a)
    ensures Select(acts + [a], f) == Select(acts, f) + [a]
    decreases |acts|
  {
    if |acts| == 0 {
      assert acts + [a] == [a];
      assert [a][1..] == [];
    } else {
      var t := acts + [a];
      assert t[0] == acts[0] && t[1..] == acts[1..] + [a];
      SelectAppend(acts[1..], a, f);
      if Matches(f, acts[0]) {
        assert Select(t, f) == [acts[0]] + (Select(acts[1..], f) + [a]);
      }
    }
  }

  /** A successful POST is the first row of the next GET for its lead. */
  lemma PostThenGetNewest(s: Store, req: ActionRequest)
    requires PostAction(s, req).reply.Ok?
    ensures var out := PostAction(s, req);
            var rows := GetActions(out.store, ActionFilter(req.leadId, None)).data.data;
            |rows| > 0 && rows[0].action == out.store.actions[|s.actions|]
  {
    var out := PostAction(s, req);
    var f := ActionFilter(req.leadId, None);
    var a := out.store.actions[|s.actions|];
    assert out.store.actions == s.actions + [a];
    SelectAppend(s.actions, a, f);
    var sel := Select(out.store.actions, f);
    assert sel[|sel| - 1] == a;
  }
}

=== FILE: admin_offers.dfy ===
/** The admin catalogue (`/api/admin/offers`): the full listing with action
    counts, and offer creation. Both sit behind the admin gate. */
module AdminOffers {
  import opened Common
  import opened Model
  import Auth
  import Actions
  import PositionOrder

  const RequiredMessage: string := "title, description, savingsText, and affiliateUrl are required"

  /** How many actions refer to the offer (`_count.actions`). */
  function ActionCount(actions: seq<Action>, id: Id): (n: nat)
    ensures n <= |actions|
  {
    if |actions| == 0 then 0
    else
      var last := actions[|actions| - 1];
      ActionCount(actions[..|actions| - 1], id) + (if last.offerId == Some(id) then 1 else 0)
  }

  /** An offer with no referring action has count zero, and the other way round. */
  lemma {:induction false} ActionCountZero(actions: seq<Action>, id: Id)
    ensures ActionCount(actions, id) == 0 <==> forall i :: 0 <= i < |actions| ==> actions[i].offerId != Some(id)
  {
    if |actions| > 0 {
      ActionCountZero(actions[..|actions| - 1], id);
    }
  }

  datatype AdminOffer = AdminOffer(offer: Offer, actionCount: nat)

  datatype AdminOfferList = AdminOfferList(data: seq<AdminOffer>, count: nat)

  function Annotate(sorted: seq<Offer>, actions: seq<Action>): (r: seq<AdminOffer>)
    ensures |r| == |sorted|
    ensures forall i :: 0 <= i < |r| ==>
              r[i].offer == sorted[i] && r[i].actionCount == ActionCount(actions, sorted[i].offerId)
  {
    seq(|sorted|, i requires 0 <= i < |sorted| => AdminOffer(sorted[i], ActionCount(actions, sorted[i].offerId)))
  }

  /** The offers of an annotated listing, in listing order. */
  function OffersOf(data: seq<AdminOffer>): (r: seq<Offer>)
    ensures |r| == |data|
    ensures forall i :: 0 <= i < |r| ==> r[i] == data[i].offer
  {
    seq(|data|, i requires 0 <= i < |data| => data[i].offer)
  }

  /** GET: refused by the gate before any store access; otherwise every offer,
      active or not, ordered by non-decreasing position, with its action count. */
  function ListAll(s: Store, authorization: Option<string>, env: Auth.Env, codec: Auth.Codec): (r: Reply<AdminOfferList>)
    ensures var denial := Auth.CheckAdminAuth(authorization, env, codec);
            denial.Some? ==> r == Fail(denial.value.status, denial.value.error)
    ensures r.Ok? ==>
              var data := r.data.data;
              && r.data.count == |data| == |s.offers|
              && multiset(OffersOf(data)) == multiset(s.offers)
              && (forall i, j :: 0 <= i < j < |data| ==> data[i].offer.position <= data[j].offer.position)
              && (forall i :: 0 <= i < |data| ==> data[i].actionCount == ActionCount(s.actions, data[i].offer.offerId))
    ensures r.Ok? <==> Auth.CheckAdminAuth(authorization, env, codec).None?
  {
    match Auth.CheckAdminAuth(authorization, env, codec)
    case Some(denial) => Fail(denial.status, denial.error)
    case None =>
      var sorted := PositionOrder.SortByPosition(s.offers);
      var data := Annotate(sorted, s.actions);
      assert OffersOf(data) == sorted;
      Ok(AdminOfferList(data, |data|))
  }

  /** The POST body. Only the first five fields are read; `isActive` is
      carried to show that it is ignored. */
  datatype OfferInput = OfferInput(
    title: Option<string>,
    description: Option<string>,
    savingsText: Option<string>,
    affiliateUrl: Option<string>,
    position: Option<int>,
    isActive: Option<bool>)

  /** The four text fields the handler requires, each present and non-empty. */
  predicate HasRequiredFields(input: OfferInput) {
    && Truthy(input.title) && Truthy(input.description)
    && Truthy(input.savingsText) && Truthy(input.affiliateUrl)
  }

  /** The highest position in the catalogue. */
  function MaxPosition(offers: seq<Offer>): (m: int)
    requires |offers| > 0
    ensures forall o :: o in offers ==> o.position <= m
    ensures exists o :: o in offers && o.position == m
  {
    if |offers| == 1 then offers[0].position
    else
      var rest := MaxPosition(offers[1..]);
      assert forall o :: o in offers ==> o == offers[0] || o in offers[1..];
      if offers[0].position >= rest then offers[0].position else rest
  }

  /** `(lastOffer?.position || 0) + 1`: one past the highest position, or 1
      for an empty catalogue. */
  function NextPosition(offers: seq<Offer>): (p: int)
    ensures forall o :: o in offers ==> o.position < p
    ensures |offers| == 0 ==> p == 1
    ensures |offers| > 0 ==> exists o :: o in offers && o.position == p - 1
  {
    var last := if |offers| == 0 then 0 else MaxPosition(offers);
    (if last != 0 then last else 0) + 1
  }

  /** POST: refused by the gate before any store access; 400 when any of the
      four text fields is missing or empty; otherwise exactly one active offer
      is appended. A non-zero position is stored as given, with no check; a
      missing or zero one becomes `NextPosition`. */
  function Create(s: Store, authorization: Option<string>, env: Auth.Env, codec: Auth.Codec, input: OfferInput): (out: Handled<Offer>)
    ensures out.reply.Fail? ==> out.store == s
    ensures var denial := Auth.CheckAdminAuth(authorization, env, codec);
            denial.Some? ==> out.reply == Fail(denial.value.status, denial.value.error)
    ensures Auth.CheckAdminAuth(authorization, env, codec).None? ==>
              (out.reply.Ok? <==> HasRequiredFields(input))
    ensures Auth.CheckAdminAuth(authorization, env, codec).None? && out.reply.Fail? ==>
              out.reply == Fail(StatusBadRequest, RequiredMessage)
    ensures out.reply.Ok? ==>
              var o := out.reply.data;
              && out.store == s.(offers := s.offers + [o], nextId := s.nextId + 1)
              && o.offerId == s.nextId && o.isActive
              && Some(o.title) == input.title && Some(o.description) == input.description
              && Some(o.savingsText) == input.savingsText && Some(o.affiliateUrl) == input.affiliateUrl
              && (input.position.Some? && input.position.value != 0 ==> o.position == input.position.value)
              && (input.position.None? || input.position.value == 0 ==> o.position == NextPosition(s.offers))
  {
    match Auth.CheckAdminAuth(authorization, env, codec)
    case Some(denial) => Handled(s, Fail(denial.status, denial.error))
    case None =>
      if !HasRequiredFields(input) then
        Handled(s, Fail(StatusBadRequest, RequiredMessage))
      else
        var position :=
          if input.position.Some? && input.position.value != 0 then input.position.value
          else NextPosition(s.offers);
        var o := Offer(s.nextId, input.title.value, input.description.value,
                       input.savingsText.value, input.affiliateUrl.value, position, true);
        Handled(s.(offers := s.offers + [o], nextId := s.nextId + 1), Ok(o))
  }

  /** Creating an offer keeps the database invariants. */
  lemma CreateValid(s: Store, authorization: Option<string>, env: Auth.Env, codec: Auth.Codec, input: OfferInput)
    requires Valid(s)
    ensures Valid(Create(s, authorization, env, codec, input).store)
  {
    var out := Create(s, authorization, env, codec, input);
    if out.reply.Ok? {
      ValidWithNewOffer(s, out.reply.data);
    }
  }

  /** Offers created one after another with default positions take strictly
      increasing positions. */
  lemma DefaultPositionsIncrease(s: Store, a: Auth.Env, codec: Auth.Codec, authorization: Option<string>,
                                 first: OfferInput, second: OfferInput)
    requires Auth.CheckAdminAuth(authorization, a, codec).None?
    requires HasRequiredFields(first) && HasRequiredFields(second)
    requires first.position.None? && second.position.None?
    ensures Create(s, authorization, a, codec, first).reply.data.position
            < Create(Create(s, authorization, a, codec, first).store, authorization, a, codec, second).reply.data.position
  {
    var one := Create(s, authorization, a, codec, first);
    assert one.reply.data in one.store.offers;
  }

  /** A logged action raises the count of the offer it names by one and
      leaves every other offer's count alone. */
  lemma PostActionCounts(s: Store, req: Actions.ActionRequest, id: Id)
    requires Actions.PostAction(s, req).reply.Ok?
    ensures var after := Actions.PostAction(s, req).store.actions;
            ActionCount(after, id) == ActionCount(s.actions, id) + (if req.offerId == Some(id) then 1 else 0)
  {
    var after := Actions.PostAction(s, req).store.actions;
    assert after[..|after| - 1] == s.actions;
  }
}

=== FILE: auth.dfy ===
/** The admin gate: an HTTP Basic authorization header (section 2 of RFC 7617)
    checked against one configured username and password. */
module Auth {
  import opened Common
  import Text

  const HeaderRequired: string := "Authorization header required"
  const InvalidFormat: string := "Invalid authorization format"
  const InvalidCredentials: string := "Invalid credentials"

  const DefaultUsername: string := "admin"
  const DefaultPassword: string := "admin123"

  /** The two environment variables; unset is `None`. */
  datatype Env = Env(adminUsername: Option<string>, adminPassword: Option<string>)

  /** `process.env.ADMIN_USERNAME || 'admin'`: an unset or empty value falls back. */
  function ValidUsername(env: Env): (u: string)
    ensures |u| > 0
    ensures Truthy(env.adminUsername) ==> u == env.adminUsername.value
    ensures !Truthy(env.adminUsername) ==> u == DefaultUsername
  {
    if Truthy(env.adminUsername) then env.adminUsername.value else DefaultUsername
  }

  function ValidPassword(env: Env): (p: string)
    ensures |p| > 0
    ensures Truthy(env.adminPassword) ==> p == env.adminPassword.value
    ensures !Truthy(env.adminPassword) ==> p == DefaultPassword
  {
    if Truthy(env.adminPassword) then env.adminPassword.value else DefaultPassword
  }

  /** Base64 is outside this model: an encoder and a decoder are supplied
      together, and `Base64Like` states the facts about them the gate relies on. */
  datatype Codec = Codec(encode: string -> string, decode: string -> string)

  predicate IsAscii(s: string) {
    forall i :: 0 <= i < |s| ==> s[i] as int < 128
  }

  /** The encoder's alphabet has no space, it encodes a non-empty text to a
      non-empty one, and decoding undoes encoding on ASCII text. */
  ghost predicate Base64Like(c: Codec) {
    && (forall s :: ' ' !in c.encode(s))
    && (forall s :: |s| > 0 ==> |c.encode(s)| > 0)
    && (forall s :: IsAscii(s) ==> c.decode(c.encode(s)) == s)
  }

  /** The second space-separated token of the header, when it is non-empty
      (`authHeader.split(' ')[1]`): the text after the first space, up to the
      next space or the end. The first token, the scheme, is not read. */
  function CredentialToken(header: string): (t: Option<string>)
    ensures ' ' !in header ==> t.None?
    ensures ' ' in header ==>
              var rest := header[Text.IndexOf(header, ' ') + 1..];
              var word := if ' ' in rest then rest[..Text.IndexOf(rest, ' ')] else rest;
              t == if |word| > 0 then Some(word) else None
  {
    var parts := Text.Split(header, ' ');
    assert ' ' in header ==> |parts| >= 2 && parts[1] == Text.Split(header[Text.IndexOf(header, ' ') + 1..], ' ')[0] by {
      Text.SplitHead(header, ' ');
    }
    assert ' ' in header ==> var rest := header[Text.IndexOf(header, ' ') + 1..];
                             Text.Split(rest, ' ')[0] == if ' ' in rest then rest[..Text.IndexOf(rest, ' ')] else rest by {
      if ' ' in header {
        Text.SplitHead(header[Text.IndexOf(header, ' ') + 1..], ' ');
      }
    }
    if |parts| >= 2 && |parts[1]| > 0 then Some(parts[1]) else None
  }

  /** `const [username, password] = credentials.split(':')`: the username is
      the text before the first colon, or all of it when there is none. */
  function UserPart(credentials: string): (u: string)
    ensures ':' !in credentials ==> u == credentials
    ensures ':' in credentials ==> u == credentials[..Text.IndexOf(credentials, ':')]
  {
    Text.Split(credentials, ':')[0]
  }

  /** The password is absent without a colon; otherwise it is the text after
      the first colon up to the next colon, so anything after a second colon
      is dropped. */
  function PasswordPart(credentials: string): (p: Option<string>)
    ensures ':' !in credentials ==> p.None?
    ensures ':' in credentials ==>
              p == Some(UserPart(credentials[Text.IndexOf(credentials, ':') + 1..]))
  {
    var parts := Text.Split(credentials, ':');
    if |parts| >= 2 then Some(parts[1]) else None
  }

  /** The 401 reply the gate answers with when it refuses. */
  datatype Denial = Denial(status: int, error: string)

  /** `checkAdminAuth`: `None` lets the request through; otherwise the 401
      reply, with the first failing check's message. */
  function CheckAdminAuth(header: Option<string>, env: Env, codec: Codec): (r: Option<Denial>)
    ensures r.Some? ==> r.value.status == StatusUnauthorized
    ensures !Truthy(header) ==> r == Some(Denial(StatusUnauthorized, HeaderRequired))
    ensures Truthy(header) && CredentialToken(header.value).None? ==>
              r == Some(Denial(StatusUnauthorized, InvalidFormat))
    ensures Truthy(header) && CredentialToken(header.value).Some? ==>
              var credentials := codec.decode(CredentialToken(header.value).value);
              && (r.None? <==> UserPart(credentials) == ValidUsername(env)
                               && PasswordPart(credentials) == Some(ValidPassword(env)))
              && (r.Some? ==> r.value.error == InvalidCredentials)
  {
    if !Truthy(header) then Some(Denial(StatusUnauthorized, HeaderRequired))
    else match CredentialToken(header.value)
      case None => Some(Denial(StatusUnauthorized, InvalidFormat))
      case Some(token) =>
        var credentials := codec.decode(token);
        if UserPart(credentials) != ValidUsername(env)
           || PasswordPart(credentials) != Some(ValidPassword(env))
        then Some(Denial(StatusUnauthorized, InvalidCredentials))
        else None
  }

  /** `createAuthHeader`: `"Basic " + base64(username ":" password)`. With a
      Base64-like codec the gate reads back exactly the encoded pair as the
      token, and on ASCII text that token decodes to the pair. */
  function CreateAuthHeader(username: string, password: string, codec: Codec): (r: string)
    ensures |r| >= 6 && r[..6] == "Basic "
    ensures Base64Like(codec) ==> CredentialToken(r) == Some(codec.encode(username + ":" + password))
    ensures Base64Like(codec) && IsAscii(username + ":" + password) ==>
              codec.decode(CredentialToken(r).value) == username + ":" + password
  {
    var token := codec.encode(username + ":" + password);
    var r := "Basic " + token;
    assert Base64Like(codec) ==> CredentialToken(r) == Some(token) by {
      if Base64Like(codec) {
        assert |username + ":" + password| > 0;
        assert r == "Basic" + " " + token;
        TokenAfterAnyScheme("Basic", token);
      }
    }
    r
  }

  /** The scheme word is never checked: any space-free word followed by a
      space and the token is judged by the token alone. */
  lemma TokenAfterAnyScheme(scheme: string, token: string)
    requires ' ' !in scheme && ' ' !in token && |token| > 0
    ensures CredentialToken(scheme + " " + token) == Some(token)
  {
    assert scheme + " " + token == Text.Join([scheme, token], ' ');
    Text.SplitJoin([scheme, token], ' ');
  }

  /** The credential fields of `u:p:rest`, for colon-free `u` and `p`. */
  lemma CredentialFields(u: string, p: string, rest: Option<string>)
    requires ':' !in u && ':' !in p
    ensures var c := if rest.Some? then u + ":" + p + ":" + rest.value else u + ":" + p;
            UserPart(c) == u && PasswordPart(c) == Some(p)
  {
    if rest.Some? {
      var c := u + ":" + p + ":" + rest.value;
      assert c == u + [':'] + (p + ":" + rest.value);
      Text.SplitFirst(u, ':', p + ":" + rest.value);
      assert p + ":" + rest.value == p + [':'] + rest.value;
      Text.SplitFirst(p, ':', rest.value);
    } else {
      var c := u + ":" + p;
      assert c == Text.Join([u, p], ':');
      Text.SplitJoin([u, p], ':');
    }
  }

  /** Round trip: the header `createAuthHeader` builds from the configured
      colon-free ASCII credentials passes the gate. */
  lemma CreatedHeaderAccepted(env: Env, codec: Codec)
    requires Base64Like(codec)
    requires IsAscii(ValidUsername(env)) && IsAscii(ValidPassword(env))
    requires ':' !in ValidUsername(env) && ':' !in ValidPassword(env)
    ensures CheckAdminAuth(Some(CreateAuthHeader(ValidUsername(env), ValidPassword(env), codec)), env, codec) == None
  {
    var u, p := ValidUsername(env), ValidPassword(env);
    var c := u + ":" + p;
    assert IsAscii(c) by {
      forall i | 0 <= i < |c| ensures c[i] as int < 128 {
        if i < |u| { assert c[i] == u[i]; }
        else if i > |u| { assert c[i] == p[i - |u| - 1]; }
      }
    }
    CredentialFields(u, p, None);
  }

  /** With neither variable set, the gate accepts the header built from the
      defaults `admin` / `admin123`, and refuses every other username. */
  lemma DefaultCredentialsAccepted(codec: Codec, header: Option<string>)
    requires Base64Like(codec)
    ensures CheckAdminAuth(Some(CreateAuthHeader(DefaultUsername, DefaultPassword, codec)), Env(None, None), codec) == None
    ensures CheckAdminAuth(header, Env(None, None), codec).None? ==>
              UserPart(codec.decode(CredentialToken(header.value).value)) == "admin"
  {
    var env := Env(None, None);
    assert IsAscii(DefaultUsername) by {
      forall i | 0 <= i < |DefaultUsername| ensures DefaultUsername[i] as int < 128 { }
    }
    assert IsAscii(DefaultPassword) by {
      forall i | 0 <= i < |DefaultPassword| ensures DefaultPassword[i] as int < 128 { }
    }
    CreatedHeaderAccepted(env, codec);
  }

  /** Deviation from section 2 of RFC 7617: the password ends at a second
      colon, so any text after it is ignored and the header is still accepted. */
  lemma PasswordTruncatedAtColon(env: Env, codec: Codec, scheme: string, token: string, rest: string)
    requires ' ' !in scheme && ' ' !in token && |token| > 0
    requires ':' !in ValidUsername(env) && ':' !in ValidPassword(env)
    requires codec.decode(token) == ValidUsername(env) + ":" + ValidPassword(env) + ":" + rest
    ensures CheckAdminAuth(Some(scheme + " " + token), env, codec) == None
  {
    TokenAfterAnyScheme(scheme, token);
    CredentialFields(ValidUsername(env), ValidPassword(env), Some(rest));
  }

  /** A configured username or password that holds a colon can never be
      matched, since both fields are colon-free: every header is refused. */
  lemma ColonInCredentialLocksOut(header: Option<string>, env: Env, codec: Codec)
    requires ':' in ValidUsername(env) || ':' in ValidPassword(env)
    ensures CheckAdminAuth(header, env, codec).Some?
  {
  }

  /** Acceptance pins the decoded credentials down to the configured pair,
      optionally followed by a colon and anything. */
  lemma AcceptedCredentials(header: Option<string>, env: Env, codec: Codec)
    requires CheckAdminAuth(header, env, codec).None?
    ensures Truthy(header) && CredentialToken(header.value).Some?
    ensures var c := codec.decode(CredentialToken(header.value).value);
            var n := |ValidUsername(env)| + 1 + |ValidPassword(env)|;
            && n <= |c|
            && c[..n] == ValidUsername(env) + ":" + ValidPassword(env)
            && (n == |c| || c[n] == ':')
  {
    var c := codec.decode(CredentialToken(header.value).value);
    DecodedFields(c, ValidUsername(env), ValidPassword(env));
  }

  /** Credentials whose fields are `u` and `p` start with `u:p`, followed by
      the end or another colon. */
  lemma DecodedFields(c: string, u: string, p: string)
    requires UserPart(c) == u && PasswordPart(c) == Some(p)
    ensures var n := |u| + 1 + |p|;
            && n <= |c|
            && c[..n] == u + ":" + p
            && (n == |c| || c[n] == ':')
  {
    assert ':' in c;
    var i := Text.IndexOf(c, ':');
    assert u == c[..i];
    var rest := c[i + 1..];
    assert UserPart(rest) == p;
    if ':' in rest {
      var j := Text.IndexOf(rest, ':');
      assert p == rest[..j];
      FieldsPrefix(c, i, p, j);
    } else {
      assert p == rest[..|rest|];
      FieldsPrefix(c, i, p, |rest|);
    }
  }

  /** The user field at `c[..i]`, the colon at `i`, and a password field that
      ends at `j` after it, either at the end or at another colon. */
  lemma FieldsPrefix(c: string, i: nat, p: string, j: nat)
    requires i < |c| && c[i] == ':'
    requires j <= |c| - i - 1 && p == c[i + 1..][..j]
    requires j == |c| - i - 1 || c[i + 1..][j] == ':'
    ensures var n := i + 1 + |p|;
            && n <= |c|
            && c[..n] == c[..i] + ":" + p
            && (n == |c| || c[n] == ':')
  {
    assert c[..i + 1 + j] == c[..i] + ":" + c[i + 1..][..j];
  }
}

=== FILE: chain.dfy ===
/** The visitor's offer chain (`OfferChainContainer`): one active offer at a
    time, a view event on display, a decline or submit event per step, and an
    index that wraps round at the end of the list. */
module Chain {
  import opened Common
  import opened Model
  import Offers
  import Actions
  import Session
  import Progress

  /** The component's state, with the session hook's state inside. */
  datatype ChainState = ChainState(
    offers: seq<Offers.PublicOffer>,
    index: nat,
    offersLoading: bool,
    offersError: Option<string>,
    session: Session.SessionState)

  const Initial: ChainState := ChainState([], 0, true, None, Session.Initial)

  /** `offers[currentOfferIndex]`, undefined past the end. */
  function CurrentOffer(c: ChainState): (o: Option<Offers.PublicOffer>)
    ensures o.Some? <==> c.index < |c.offers|
    ensures o.Some? ==> o.value == c.offers[c.index]
  {
    if c.index < |c.offers| then Some(c.offers[c.index]) else None
  }

  /** The one-based step number shown and logged. */
  function CurrentStep(c: ChainState): int {
    c.index + 1
  }

  /** The index never points past the list once the list is non-empty. */
  predicate InRange(c: ChainState) {
    |c.offers| > 0 ==> c.index < |c.offers|
  }

  /** The mount-time offer fetch: the list on success, the message on failure;
      loading ends either way. */
  function FetchOffers(c: ChainState, outcome: Fetch<seq<Offers.PublicOffer>>): (r: ChainState)
    ensures !r.offersLoading && r.index == c.index && r.session == c.session
    ensures outcome.Fetched? ==> r.offers == outcome.body && r.offersError == c.offersError
    ensures outcome.Threw? ==> r.offers == c.offers && r.offersError == Some(outcome.message)
  {
    match outcome
    case Fetched(list) => c.(offers := list, offersLoading := false)
    case Threw(message) => c.(offersError := Some(message), offersLoading := false)
  }

  /** The fetch runs at mount, with the index still at 0, so the index is in
      range afterwards. */
  lemma FetchOffersInRange(c: ChainState, outcome: Fetch<seq<Offers.PublicOffer>>)
    requires c.index == 0 || (outcome.Threw? && InRange(c))
    ensures InRange(FetchOffers(c, outcome))
  {
  }

  /** The outcome of a user step: the next state, the telemetry call made,
      and, for an accept, the affiliate address handed to the visitor. */
  datatype StepResult = StepResult(state: ChainState, call: Option<Session.LogCall>, redirect: Option<string>)

  /** Shared by decline and accept: track the event for the current offer and
      step, then move to the next offer, wrapping to the first. */
  function Advance(c: ChainState, kind: ActionType, b: Session.Browser,
                   outcome: Fetch<Actions.ActionReceipt>): (r: StepResult)
    ensures CurrentOffer(c).None? ==> r == StepResult(c, None, None)
    ensures CurrentOffer(c).Some? ==>
              && r.state == c.(index := (c.index + 1) % |c.offers|)
              && r.state.index < |c.offers|
              && (r.call.Some? <==> c.session.leadId.Some?)
              && (r.call.Some? ==>
                    && r.call.value.actionType == TypeName(kind)
                    && r.call.value.offerId == Some(c.offers[c.index].offerId)
                    && r.call.value.offerPosition == Some(CurrentStep(c))
                    && 1 <= CurrentStep(c) <= |c.offers|)
  {
    match CurrentOffer(c)
    case None => StepResult(c, None, None)
    case Some(offer) =>
      var tracked := Session.TrackAction(c.session, b, TypeName(kind), Some(offer.offerId),
                                         Some(CurrentStep(c)), map[], outcome);
      StepResult(c.(index := (c.index + 1) % |c.offers|), tracked.call, None)
  }

  /** `handleDecline`: a DECLINE event, then the next offer. */
  function HandleDecline(c: ChainState, b: Session.Browser, outcome: Fetch<Actions.ActionReceipt>): (r: StepResult)
    ensures r.redirect.None?
    ensures r.call.Some? ==> r.call.value.actionType == "PATH_DECLINE"
    ensures r.state == Advance(c, PathDecline, b, outcome).state
    ensures r.call == Advance(c, PathDecline, b, outcome).call
  {
    Advance(c, PathDecline, b, outcome)
  }

  /** `handleAccept`: a SUBMIT event, the offer's affiliate address, then the
      next offer. */
  function HandleAccept(c: ChainState, b: Session.Browser, outcome: Fetch<Actions.ActionReceipt>): (r: StepResult)
    ensures r.call.Some? ==> r.call.value.actionType == "PATH_SUBMIT"
    ensures r.redirect.Some? <==> CurrentOffer(c).Some?
    ensures r.redirect.Some? ==> r.redirect.value == c.offers[c.index].affiliateUrl
    ensures r.state == Advance(c, PathSubmit, b, outcome).state
    ensures r.call == Advance(c, PathSubmit, b, outcome).call
  {
    var step := Advance(c, PathSubmit, b, outcome);
    match CurrentOffer(c)
    case None => step
    case Some(offer) => step.(redirect := Some(offer.affiliateUrl))
  }

  /** Telemetry never blocks the chain. When the ledger refuses the logged
      call, `trackAction` swallows the failure and yields no result, and the
      step still moves to the next offer, just as when the call succeeds. */
  lemma RefusedLogStillAdvances(c: ChainState, kind: ActionType, b: Session.Browser, s: Store,
                                accepted: Actions.ActionReceipt)
    requires CurrentOffer(c).Some? && c.session.leadId.Some?
    ensures var call := Advance(c, kind, b, Fetched(accepted)).call.value;
            var delivered := Session.Deliver(s, call).1;
            Actions.PostAction(s, Session.ToRequest(call)).reply.Fail? ==>
              && delivered.Threw?
              && Session.TrackAction(c.session, b, TypeName(kind), Some(c.offers[c.index].offerId),
                                     Some(CurrentStep(c)), map[], delivered).result.None?
              && Advance(c, kind, b, delivered).state == c.(index := (c.index + 1) % |c.offers|)
              && Advance(c, kind, b, delivered) == Advance(c, kind, b, Fetched(accepted))
  {
  }

  /** Decline and accept keep the index in range. */
  lemma AdvanceInRange(c: ChainState, kind: ActionType, b: Session.Browser, outcome: Fetch<Actions.ActionReceipt>)
    requires InRange(c)
    ensures InRange(Advance(c, kind, b, outcome).state)
    ensures |Advance(c, kind, b, outcome).state.offers| == |c.offers|
  {
  }

  /** `k` declines in a row. */
  function Declines(c: ChainState, k: nat, b: Session.Browser, outcome: Fetch<Actions.ActionReceipt>): ChainState
  {
    if k == 0 then c else HandleDecline(Declines(c, k - 1, b, outcome), b, outcome).state
  }

  /** One decline on a non-empty chain moves the index one place round. */
  lemma DeclineStep(c: ChainState, b: Session.Browser, outcome: Fetch<Actions.ActionReceipt>)
    requires |c.offers| > 0 && c.index < |c.offers|
    ensures HandleDecline(c, b, outcome).state == c.(index := (c.index + 1) % |c.offers|)
  {
    assert CurrentOffer(c).Some?;
  }

  /** The k-th decline, taken from where k - 1 declines left the chain. */
  lemma DeclineAfter(c: ChainState, prev: ChainState, k: nat, b: Session.Browser,
                     outcome: Fetch<Actions.ActionReceipt>)
    requires |c.offers| > 0 && k > 0
    requires prev == c.(index := (c.index + k - 1) % |c.offers|)
    ensures HandleDecline(prev, b, outcome).state == c.(index := (c.index + k) % |c.offers|)
  {
    DeclineStep(prev, b, outcome);
    ModSucc(c.index + k - 1, |c.offers|);
  }

  /** After `k` declines the index has moved `k` places round the list. */
  lemma {:induction false} DeclinesIndex(c: ChainState, k: nat, b: Session.Browser, outcome: Fetch<Actions.ActionReceipt>)
    requires |c.offers| > 0 && c.index < |c.offers|
    ensures Declines(c, k, b, outcome) == c.(index := (c.index + k) % |c.offers|)
  {
    if k == 0 {
      ModUnique(c.index, |c.offers|, 0, c.index);
    } else {
      DeclinesIndex(c, k - 1, b, outcome);
      DeclineAfter(c, Declines(c, k - 1, b, outcome), k, b, outcome);
    }
  }

  lemma ModSucc(a: nat, n: nat)
    requires n > 0
    ensures ((a % n) + 1) % n == (a + 1) % n
  {
    var q, r := a / n, a % n;
    assert a == q * n + r;
    if r + 1 < n {
      ModUnique(r + 1, n, 0, r + 1);
      ModUnique(a + 1, n, q, r + 1);
    } else {
      ModUnique(r + 1, n, 1, 0);
      assert a + 1 == (q + 1) * n;
      ModUnique(a + 1, n, q + 1, 0);
    }
  }

  /** Euclidean division has one remainder. */
  lemma ModUnique(x: int, n: int, q: int, r: int)
    requires n > 0 && x == q * n + r && 0 <= r < n
    ensures x % n == r
  {
    var q0, r0 := x / n, x % n;
    assert q0 * n + r0 == x;
    assert (q - q0) * n == r0 - r;
    if q > q0 {
      MulAtLeast(q - q0, n);
    } else if q < q0 {
      MulAtLeast(q0 - q, n);
    }
  }

  lemma MulAtLeast(d: int, n: int)
    requires d >= 1 && n > 0
    ensures d * n >= n
  {
  }

  /** The chain is a cycle: as many declines as there are offers come back to
      the offer they started from. */
  lemma DeclineCycle(c: ChainState, b: Session.Browser, outcome: Fetch<Actions.ActionReceipt>)
    requires |c.offers| > 0 && c.index < |c.offers|
    ensures Declines(c, |c.offers|, b, outcome) == c
  {
    DeclinesIndex(c, |c.offers|, b, outcome);
    ModUnique(c.index + |c.offers|, |c.offers|, 1, c.index);
  }

  /** The view effect's guard: an offer is shown, the lead is known, and
      nothing is loading. */
  predicate ShouldTrackView(c: ChainState) {
    CurrentOffer(c).Some? && c.session.leadId.Some? && !c.session.loading && !c.offersLoading
  }

  /** The VIEW event the effect sends, if its guard holds. */
  function ViewCall(c: ChainState, b: Session.Browser, outcome: Fetch<Actions.ActionReceipt>): (call: Option<Session.LogCall>)
    ensures call.Some? <==> ShouldTrackView(c)
    ensures call.Some? ==>
              && call.value.actionType == "PATH_VIEW"
              && call.value.offerId == Some(c.offers[c.index].offerId)
              && call.value.offerPosition == Some(CurrentStep(c))
  {
    if ShouldTrackView(c) then
      Session.TrackAction(c.session, b, TypeName(PathView), Some(c.offers[c.index].offerId),
                          Some(CurrentStep(c)), map[], outcome).call
    else None
  }

  /** What the component renders. */
  datatype Screen =
    | LoadingScreen(message: string)
    | ErrorScreen(message: string)
    | EmptyScreen
    | OfferScreen(step: int, total: nat, offer: Option<Offers.PublicOffer>)

  const InitializingMessage: string := "Initializing session..."
  const LoadingOffersMessage: string := "Loading offers..."

  /** Loading wins over an error, an error over an empty list, an empty list
      over showing an offer. */
  function Render(c: ChainState): (scr: Screen)
    ensures scr.LoadingScreen? <==> c.session.loading || c.offersLoading
    ensures scr.LoadingScreen? ==>
              scr.message == if c.session.loading then InitializingMessage else LoadingOffersMessage
    ensures scr.ErrorScreen? <==>
              !c.session.loading && !c.offersLoading && (Truthy(c.session.error) || Truthy(c.offersError))
    ensures scr.EmptyScreen? <==>
              !c.session.loading && !c.offersLoading && !Truthy(c.session.error) && !Truthy(c.offersError)
              && |c.offers| == 0
    ensures scr.ErrorScreen? ==>
              scr.message == if Truthy(c.session.error) then c.session.error.value else c.offersError.value
    ensures scr.OfferScreen? ==> scr.step == CurrentStep(c) && scr.total == |c.offers|
    ensures scr.OfferScreen? && InRange(c) ==> scr.offer == Some(c.offers[c.index])
  {
    if c.session.loading || c.offersLoading then
      LoadingScreen(if c.session.loading then InitializingMessage else LoadingOffersMessage)
    else if Truthy(c.session.error) then ErrorScreen(c.session.error.value)
    else if Truthy(c.offersError) then ErrorScreen(c.offersError.value)
    else if |c.offers| == 0 then EmptyScreen
    else OfferScreen(CurrentStep(c), |c.offers|, CurrentOffer(c))
  }

  /** Before anything has loaded the chain shows "Initializing session...";
      once the session is settled, either way, it shows "Loading offers..."
      until the offers fetch settles. */
  lemma InitialScreens(newSessionId: string, lead: Fetch<Id>)
    ensures Render(Initial) == LoadingScreen(InitializingMessage)
    ensures Render(Initial.(session := Session.InitializeSession(Initial.session, newSessionId, lead)))
            == LoadingScreen(LoadingOffersMessage)
  {
  }

  /** The progress bar the chain shows: for a chain of at most ten offers,
      exactly the current step's circle is active and exactly the earlier
      ones are completed. */
  lemma ProgressMatchesChain(c: ChainState)
    requires 0 < |c.offers| <= Progress.MaxShown && InRange(c)
    ensures var cs := Progress.Circles(CurrentStep(c), Some(|c.offers|));
            && |cs| == |c.offers|
            && cs[c.index].active
            && (forall i :: 0 <= i < |cs| && cs[i].active ==> i == c.index)
            && (forall i :: 0 <= i < |cs| ==> (cs[i].completed <==> i < c.index))
  {
  }

  /** A step the visitor takes reaches the ledger with its step number intact:
      when the lead and offer exist, the stored action records the offer and
      the one-based step, which is never the falsy 0. */
  lemma StepLogged(s: Store, c: ChainState, kind: ActionType, b: Session.Browser,
                   outcome: Fetch<Actions.ActionReceipt>)
    requires CurrentOffer(c).Some? && c.session.leadId.Some?
    requires c.session.leadId.value in LeadIds(s.leads)
    requires c.offers[c.index].offerId in OfferIds(s.offers)
    ensures var call := Advance(c, kind, b, outcome).call.value;
            var out := Actions.PostAction(s, Session.ToRequest(call));
            && out.reply.Ok?
            && out.store.actions[|s.actions|].actionType == kind
            && out.store.actions[|s.actions|].offerId == Some(c.offers[c.index].offerId)
            && out.store.actions[|s.actions|].offerPosition == Some(CurrentStep(c))
  {
    ParseTypeName(kind);
  }
}

=== FILE: common.dfy ===
/** Shared vocabulary of the model: optional values, identifiers, HTTP replies
    and the outcome of a client-side fetch. */
module Common {

  /** A value that may be absent (JavaScript `null` or `undefined`). */
  datatype Option<+T> = None | Some(value: T) {
    function GetOr(default: T): T {
      match this
      case Some(v) => v
      case None => default
    }
  }

  /** Record identifiers are opaque; the store issues them from a counter. */
  type Id = nat

  /** JavaScript truthiness of an optional string: present and not empty. */
  predicate Truthy(s: Option<string>) {
    s.Some? && |s.value| > 0
  }

  const StatusBadRequest: int := 400
  const StatusUnauthorized: int := 401
  const StatusNotFound: int := 404
  const StatusServerError: int := 500

  /** The JSON envelope every route handler answers with: `{success: true, data}`
      with status 200, or `{success: false, error}` with a failure status. */
  datatype Reply<+T> = Ok(data: T) | Fail(status: int, error: string)

  /** What an awaited `fetch` gives a client: a parsed body, or a thrown error
      carrying its message. */
  datatype Fetch<+T> = Fetched(body: T) | Threw(message: string)
}

=== FILE: dashboard.dfy ===
/** The admin dashboard's data logic (`fetchAllData` and the display rules of
    the admin page); the markup is outside the model. */
module Dashboard {
  import opened Common
  import opened Model
  import Actions
  import AdminOffers

  const LoadFailed: string := "Failed to load dashboard data"
  const RecentCap: nat := 10
  const LogCap: nat := 50

  datatype Stats = Stats(totalLeads: nat, totalActions: nat, totalOffers: nat)

  datatype DashboardState = DashboardState(
    offers: seq<AdminOffers.AdminOffer>,
    actions: seq<Actions.ActionRow>,
    stats: Stats,
    loading: bool,
    error: string)

  const Initial: DashboardState := DashboardState([], [], Stats(0, 0, 0), true, "")

  /** The distinct leads among the fetched actions (`new Set(...).size`). */
  function DistinctLeads(rows: seq<Actions.ActionRow>): set<Id> {
    set r | r in rows :: r.action.leadId
  }

  /** There are no more distinct leads than actions. */
  lemma {:induction false} DistinctLeadsBound(rows: seq<Actions.ActionRow>)
    ensures |DistinctLeads(rows)| <= |rows|
  {
    if |rows| > 0 {
      var init := rows[..|rows| - 1];
      DistinctLeadsBound(init);
      assert rows == init + [rows[|rows| - 1]];
      assert DistinctLeads(rows) == DistinctLeads(init) + {rows[|rows| - 1].action.leadId};
    }
  }

  function StatsOf(offers: seq<AdminOffers.AdminOffer>, actions: Reply<Actions.ActionList>): (st: Stats)
    ensures st.totalOffers == |offers|
    ensures actions.Ok? ==> st.totalActions == |actions.data.data|
                            && st.totalLeads == |DistinctLeads(actions.data.data)|
                            && st.totalLeads <= st.totalActions
    ensures actions.Fail? ==> st == Stats(0, 0, |offers|)
  {
    var rows := if actions.Ok? then actions.data.data else [];
    DistinctLeadsBound(rows);
    Stats(|DistinctLeads(rows)|, |rows|, |offers|)
  }

  /** `fetchAllData`: the offers fetch, then the actions fetch. A thrown error
      on either sets the error message and changes no data; otherwise the data
      and statistics change only when the offers reply succeeded. Loading ends
      on every path. */
  function FetchAllData(d: DashboardState, offers: Fetch<Reply<AdminOffers.AdminOfferList>>,
                        actions: Fetch<Reply<Actions.ActionList>>): (r: DashboardState)
    ensures !r.loading
    ensures (offers.Threw? || actions.Threw?) ==> r == d.(loading := false, error := LoadFailed)
    ensures offers.Fetched? && actions.Fetched? && offers.body.Fail? ==> r == d.(loading := false)
    ensures offers.Fetched? && actions.Fetched? && offers.body.Ok? ==>
              && r.error == d.error
              && r.offers == offers.body.data.data
              && r.actions == (if actions.body.Ok? then actions.body.data.data else [])
              && r.stats.totalOffers == |r.offers|
              && r.stats.totalActions == |r.actions|
              && r.stats.totalLeads == |DistinctLeads(r.actions)|
  {
    match (offers, actions)
    case (Threw(_), _) => d.(loading := false, error := LoadFailed)
    case (_, Threw(_)) => d.(loading := false, error := LoadFailed)
    case (Fetched(o), Fetched(a)) =>
      if o.Ok? then
        DashboardState(o.data.data, if a.Ok? then a.data.data else [], StatsOf(o.data.data, a), false, d.error)
      else d.(loading := false)
  }

  /** The first load from the initial state: loading ends, and the error
      banner is shown exactly when one of the two fetches threw. */
  lemma InitialLoad(offers: Fetch<Reply<AdminOffers.AdminOfferList>>, actions: Fetch<Reply<Actions.ActionList>>)
    ensures var r := FetchAllData(Initial, offers, actions);
            && Initial.loading && !r.loading
            && (r.error == LoadFailed <==> offers.Threw? || actions.Threw?)
            && (r.error != LoadFailed ==> r.error == "")
  {
  }

  /** With the ledger's own read behind it, the statistics satisfy
      leads <= actions <= 100. */
  lemma StatsBounded(d: DashboardState, offers: Fetch<Reply<AdminOffers.AdminOfferList>>,
                     s: Store, f: Actions.ActionFilter)
    requires offers.Fetched? && offers.body.Ok?
    ensures var r := FetchAllData(d, offers, Fetched(Actions.GetActions(s, f)));
            r.stats.totalLeads <= r.stats.totalActions <= Actions.ReadCap
  {
    DistinctLeadsBound(Actions.GetActions(s, f).data.data);
  }

  /** The "Recent Activity" panel: the first ten rows. */
  function RecentActivity(d: DashboardState): (rows: seq<Actions.ActionRow>)
    ensures |rows| <= RecentCap
    ensures |rows| == |d.actions| || |rows| == RecentCap
    ensures |rows| <= |d.actions| && rows == d.actions[..|rows|]
  {
    if |d.actions| <= RecentCap then d.actions else d.actions[..RecentCap]
  }

  /** The "Action Log" table: the first fifty rows. */
  function ActionLog(d: DashboardState): (rows: seq<Actions.ActionRow>)
    ensures |rows| <= LogCap
    ensures |rows| == |d.actions| || |rows| == LogCap
    ensures |rows| <= |d.actions| && rows == d.actions[..|rows|]
  {
    if |d.actions| <= LogCap then d.actions else d.actions[..LogCap]
  }

  /** The body `toggleOfferStatus` sends. */
  datatype StatusUpdate = StatusUpdate(isActive: bool)

  function ToggleOfferStatus(currentStatus: bool): (u: StatusUpdate)
    ensures u.isActive != currentStatus
  {
    StatusUpdate(!currentStatus)
  }

  datatype Badge = Blue | Yellow | Green

  /** The action-type badge colour. Anything that is neither view nor decline
      is green. */
  function BadgeFor(actionType: string): (b: Badge)
    ensures b == Blue <==> actionType == "PATH_VIEW"
    ensures b == Yellow <==> actionType == "PATH_DECLINE"
  {
    if actionType == "PATH_VIEW" then Blue
    else if actionType == "PATH_DECLINE" then Yellow
    else Green
  }

  /** On stored actions the three colours tell the three kinds apart. */
  lemma BadgeDistinguishesKinds(t: ActionType)
    ensures BadgeFor(TypeName(t)) == match t
                                      case PathView => Blue
                                      case PathDecline => Yellow
                                      case PathSubmit => Green
  {
  }
}

=== FILE: db.dfy ===
/** The database error translator used by the route handlers' catch blocks. */
module Db {
  import opened Common

  /** The error body: an object with a single `error` key. */
  datatype DbErrorBody = DbErrorBody(error: string)

  const UniqueViolation: string := "P2002"
  const RecordMissing: string := "P2025"

  const AlreadyExistsMessage: string := "Record already exists"
  const NotFoundMessage: string := "Record not found"
  const GenericMessage: string := "Database operation failed"

  /** Maps an ORM error code (absent for errors that carry none) to the
      message shown to callers. Every code gets exactly one of three messages. */
  function HandleDbError(code: Option<string>): (r: DbErrorBody)
    ensures r.error == AlreadyExistsMessage <==> code == Some(UniqueViolation)
    ensures r.error == NotFoundMessage <==> code == Some(RecordMissing)
    ensures r.error == GenericMessage <==> code !in {Some(UniqueViolation), Some(RecordMissing)}
  {
    if code == Some(UniqueViolation) then DbErrorBody(AlreadyExistsMessage)
    else if code == Some(RecordMissing) then DbErrorBody(NotFoundMessage)
    else DbErrorBody(GenericMessage)
  }
}

=== FILE: leads.dfy ===
/** Identity resolution (`/api/leads`): a visitor is identified by a
    fingerprint taken from proxy headers, and a lead is looked up, or created,
    by that fingerprint. */
module Leads {
  import opened Common
  import opened Model
  import Text

  /** The two request headers the fingerprint is derived from. */
  datatype Headers = Headers(forwardedFor: Option<string>, realIp: Option<string>)

  const Loopback: string := "127.0.0.1"
  const LeadNotFound: string := "Lead not found"

  /** `getClientIP`: the first entry of `x-forwarded-for`, trimmed, when that
      header is non-empty; else `x-real-ip` verbatim when non-empty; else the
      loopback address. */
  function ClientIp(h: Headers): (ip: string)
    ensures Truthy(h.forwardedFor) ==> Text.Trimmed(ip)
    ensures !Truthy(h.forwardedFor) && Truthy(h.realIp) ==> ip == h.realIp.value
    ensures !Truthy(h.forwardedFor) && !Truthy(h.realIp) ==> ip == Loopback
  {
    if Truthy(h.forwardedFor) then Text.Trim(Text.Split(h.forwardedFor.value, ',')[0])
    else if Truthy(h.realIp) then h.realIp.value
    else Loopback
  }

  /** A forwarded-for list `"  addr  , rest"` yields `addr`, whatever follows
      the first comma and whatever `x-real-ip` says. */
  lemma ClientIpFirstForwarded(pre: string, addr: string, post: string, rest: string, realIp: Option<string>)
    requires Text.AllSpace(pre) && Text.AllSpace(post) && Text.Trimmed(addr) && ',' !in addr
    ensures ClientIp(Headers(Some(pre + addr + post + "," + rest), realIp)) == addr
  {
    var entry := pre + addr + post;
    assert ',' !in entry by {
      assert forall k :: 0 <= k < |pre| ==> Text.IsJsSpace(pre[k]);
      assert forall k :: 0 <= k < |post| ==> Text.IsJsSpace(post[k]);
    }
    assert pre + addr + post + "," + rest == entry + [','] + rest;
    Text.SplitFirst(entry, ',', rest);
    Text.TrimPadded(pre, addr, post);
  }

  /** A forwarded-for header with a single padded entry yields that entry. */
  lemma ClientIpSingleForwarded(pre: string, addr: string, post: string, realIp: Option<string>)
    requires Text.AllSpace(pre) && Text.AllSpace(post) && Text.Trimmed(addr) && ',' !in addr
    requires |pre + addr + post| > 0
    ensures ClientIp(Headers(Some(pre + addr + post), realIp)) == addr
  {
    var entry := pre + addr + post;
    assert ',' !in entry by {
      assert forall k :: 0 <= k < |pre| ==> Text.IsJsSpace(pre[k]);
      assert forall k :: 0 <= k < |post| ==> Text.IsJsSpace(post[k]);
    }
    assert Text.Split(entry, ',') == [entry];
    Text.TrimPadded(pre, addr, post);
  }

  /** Index of the first lead recorded for `ip` (`findFirst`), if any. */
  function FindLead(leads: seq<Lead>, ip: string): (r: Option<nat>)
    ensures r.Some? ==> r.value < |leads| && leads[r.value].ipAddress == ip
    ensures r.Some? ==> forall k :: 0 <= k < r.value ==> leads[k].ipAddress != ip
    ensures r.None? ==> forall k :: 0 <= k < |leads| ==> leads[k].ipAddress != ip
  {
    if |leads| == 0 then None
    else if leads[0].ipAddress == ip then Some(0)
    else
      match FindLead(leads[1..], ip)
      case None => None
      case Some(k) => Some(k + 1)
  }

  /** POST response body. */
  datatype LeadData = LeadData(leadId: Id, isNewLead: bool)

  /** GET response body. */
  datatype LeadRef = LeadRef(leadId: Id)

  /** Lookup-then-create: the lead found, or a new one appended to the store. */
  function Resolve(s: Store, ip: string): (r: (Store, Lead, bool))
    ensures FindLead(s.leads, ip).Some? ==>
              r.0 == s && !r.2 && r.1 == s.leads[FindLead(s.leads, ip).value]
    ensures FindLead(s.leads, ip).None? ==>
              && r.2 && r.1 == Lead(s.nextId, ip, s.clock)
              && r.0 == s.(leads := s.leads + [r.1], nextId := s.nextId + 1, clock := s.clock + 1)
  {
    match FindLead(s.leads, ip)
    case Some(k) => (s, s.leads[k], false)
    case None =>
      var lead := Lead(s.nextId, ip, s.clock);
      (s.(leads := s.leads + [lead], nextId := s.nextId + 1, clock := s.clock + 1), lead, true)
  }

  /** POST `/api/leads` as written: the flag `isNewLead` is computed as
      `!lead` after `lead` has been assigned, so it is always false. */
  function PostLead(s: Store, h: Headers): (out: Handled<LeadData>)
    ensures out.reply.Ok? && !out.reply.data.isNewLead
    ensures var ip := ClientIp(h);
            FindLead(s.leads, ip).Some? ==>
              && out.store == s
              && out.reply.data.leadId == s.leads[FindLead(s.leads, ip).value].leadId
    ensures var ip := ClientIp(h);
            FindLead(s.leads, ip).None? ==>
              && out.store.leads == s.leads + [Lead(s.nextId, ip, s.clock)]
              && out.store.offers == s.offers && out.store.actions == s.actions
              && out.store.nextId == s.nextId + 1 && out.store.clock == s.clock + 1
              && out.reply.data.leadId == s.nextId
  {
    var (s', lead, _) := Resolve(s, ClientIp(h));
    var found: Option<Lead> := Some(lead);
    Handled(s', Ok(LeadData(lead.leadId, found.None?)))
  }

  /** POST `/api/leads` with the flag the response evidently means: true
      exactly when this call created the lead. */
  function PostLeadIntended(s: Store, h: Headers): (out: Handled<LeadData>)
    ensures out.reply.Ok?
    ensures out.reply.data.isNewLead <==> FindLead(s.leads, ClientIp(h)).None?
    ensures out.store == PostLead(s, h).store
    ensures out.reply.data.leadId == PostLead(s, h).reply.data.leadId
  {
    var (s', lead, created) := Resolve(s, ClientIp(h));
    Handled(s', Ok(LeadData(lead.leadId, created)))
  }

  /** The discrepancy on a concrete input: the very first request from a
      fresh database creates a lead, yet the response calls it returning. */
  lemma FirstVisitReportedAsReturning()
    ensures var s := Store([], [], [], 0, 0);
            var h := Headers(None, None);
            && |PostLead(s, h).store.leads| == 1
            && !PostLead(s, h).reply.data.isNewLead
            && PostLeadIntended(s, h).reply.data.isNewLead
  {
  }

  /** GET `/api/leads`: read-only lookup; 404 when no lead has the fingerprint,
      else the first lead recorded for it. */
  function GetLead(s: Store, h: Headers): (r: Reply<LeadRef>)
    ensures r.Fail? <==> forall k :: 0 <= k < |s.leads| ==> s.leads[k].ipAddress != ClientIp(h)
    ensures r.Fail? ==> r.status == StatusNotFound && r.error == LeadNotFound
    ensures r.Ok? ==> exists k :: 0 <= k < |s.leads| && s.leads[k].ipAddress == ClientIp(h)
                                  && r.data.leadId == s.leads[k].leadId
                                  && forall j :: 0 <= j < k ==> s.leads[j].ipAddress != ClientIp(h)
  {
    var ip := ClientIp(h);
    match FindLead(s.leads, ip)
    case None => Fail(StatusNotFound, LeadNotFound)
    case Some(k) => Ok(LeadRef(s.leads[k].leadId))
  }

  /** The client's `getOrCreateLead`: GET first, POST when the GET fails. It
      ends with the same store and lead identifier as a bare POST. */
  function GetOrCreateLead(s: Store, h: Headers): (r: (Store, Id))
    ensures r.0 == PostLead(s, h).store
    ensures r.1 == PostLead(s, h).reply.data.leadId
  {
    match GetLead(s, h)
    case Ok(ref) => (s, ref.leadId)
    case Fail(_, _) =>
      var out := PostLead(s, h);
      (out.store, out.reply.data.leadId)
  }

  /** After resolution the store holds a lead for the fingerprint, and the
      first one is the lead resolution returned. */
  lemma ResolveFinds(s: Store, ip: string)
    ensures var r := Resolve(s, ip);
            && FindLead(r.0.leads, ip).Some?
            && r.0.leads[FindLead(r.0.leads, ip).value] == r.1
  {
    if FindLead(s.leads, ip).None? {
      var leads' := Resolve(s, ip).0.leads;
      assert leads'[|s.leads|].ipAddress == ip;
      assert FindLead(leads', ip) == Some(|s.leads|);
    }
  }

  /** Resolution keeps the database invariants. */
  lemma ResolveValid(s: Store, ip: string)
    requires Valid(s)
    ensures Valid(Resolve(s, ip).0)
  {
    if FindLead(s.leads, ip).None? {
      assert LeadIds(s.leads) <= LeadIds(Resolve(s, ip).0.leads);
    }
  }

  /** Resolving a fingerprint twice in a row: same lead identifier, and the
      second call changes nothing. */
  lemma PostLeadIdempotent(s: Store, h: Headers)
    ensures var first := PostLead(s, h);
            var second := PostLead(first.store, h);
            && second.store == first.store
            && second.reply.data.leadId == first.reply.data.leadId
  {
    ResolveFinds(s, ClientIp(h));
  }

  /** After a POST, a GET with the same headers finds the lead the POST returned. */
  lemma PostThenGetLead(s: Store, h: Headers)
    ensures GetLead(PostLead(s, h).store, h) == Ok(LeadRef(PostLead(s, h).reply.data.leadId))
  {
    ResolveFinds(s, ClientIp(h));
  }

  /** Lead resolution keeps the database invariants. */
  lemma PostLeadValid(s: Store, h: Headers)
    requires Valid(s)
    ensures Valid(PostLead(s, h).store)
  {
    ResolveValid(s, ClientIp(h));
  }
}

=== FILE: model.dfy ===
/** The relational store behind the route handlers: offers, leads and the
    action ledger, plus the counters the store uses to issue identifiers and
    creation times. */
module Model {
  import opened Common

  /** The three action kinds the ledger accepts. */
  datatype ActionType = PathView | PathDecline | PathSubmit

  /** The wire name of an action kind. */
  function TypeName(t: ActionType): string {
    match t
    case PathView => "PATH_VIEW"
    case PathDecline => "PATH_DECLINE"
    case PathSubmit => "PATH_SUBMIT"
  }

  /** Reads a wire name back; any other text names no action kind. */
  function ParseType(name: string): (t: Option<ActionType>)
    ensures t.Some? <==> name in {"PATH_VIEW", "PATH_DECLINE", "PATH_SUBMIT"}
    ensures t.Some? ==> TypeName(t.value) == name
  {
    if name == "PATH_VIEW" then Some(PathView)
    else if name == "PATH_DECLINE" then Some(PathDecline)
    else if name == "PATH_SUBMIT" then Some(PathSubmit)
    else None
  }

  /** Names and parsing are inverse to each other. */
  lemma ParseTypeName(t: ActionType)
    ensures ParseType(TypeName(t)) == Some(t)
  {
  }

  /** A value inside an action's free-form metadata object. */
  datatype MetaValue = MStr(text: string) | MNull
  type Meta = map<string, MetaValue>

  datatype Offer = Offer(
    offerId: Id,
    title: string,
    description: string,
    savingsText: string,
    affiliateUrl: string,
    position: int,
    isActive: bool)

  datatype Lead = Lead(leadId: Id, ipAddress: string, createdAt: nat)

  datatype Action = Action(
    actionId: Id,
    leadId: Id,
    actionType: ActionType,
    sessionId: Option<string>,
    offerId: Option<Id>,
    offerPosition: Option<int>,
    metadata: Option<Meta>,
    createdAt: nat)

  /** The whole database. `nextId` is the next identifier the store issues and
      `clock` the next creation time; both only grow. */
  datatype Store = Store(
    offers: seq<Offer>,
    leads: seq<Lead>,
    actions: seq<Action>,
    nextId: nat,
    clock: nat)

  /** What a route handler leaves behind: the new store and its reply. */
  datatype Handled<+T> = Handled(store: Store, reply: Reply<T>)

  function OfferIds(offers: seq<Offer>): set<Id> {
    set o | o in offers :: o.offerId
  }

  function LeadIds(leads: seq<Lead>): set<Id> {
    set l | l in leads :: l.leadId
  }

  /** The first offer with the given identifier (`findUnique`). */
  function FindOffer(offers: seq<Offer>, id: Id): (r: Option<Offer>)
    ensures r.Some? ==> r.value in offers && r.value.offerId == id
    ensures r.None? ==> id !in OfferIds(offers)
  {
    if |offers| == 0 then None
    else if offers[0].offerId == id then Some(offers[0])
    else
      var r := FindOffer(offers[1..], id);
      assert OfferIds(offers) == {offers[0].offerId} + OfferIds(offers[1..]);
      r
  }

  /** Database invariants: identifiers are unique per table and already
      issued, creation times are issued in insertion order, and every action
      refers to an existing lead and, when it names one, an existing offer. */
  predicate Valid(s: Store) {
    && (forall i :: 0 <= i < |s.offers| ==> s.offers[i].offerId < s.nextId)
    && (forall i, j :: 0 <= i < j < |s.offers| ==> s.offers[i].offerId != s.offers[j].offerId)
    && (forall i :: 0 <= i < |s.leads| ==> s.leads[i].leadId < s.nextId && s.leads[i].createdAt < s.clock)
    && (forall i, j :: 0 <= i < j < |s.leads| ==> s.leads[i].leadId != s.leads[j].leadId)
    && (forall i :: 0 <= i < |s.actions| ==> s.actions[i].actionId < s.nextId && s.actions[i].createdAt < s.clock)
    && (forall i, j :: 0 <= i < j < |s.actions| ==> s.actions[i].actionId != s.actions[j].actionId)
    && (forall i, j :: 0 <= i < j < |s.actions| ==> s.actions[i].createdAt < s.actions[j].createdAt)
    && (forall i :: 0 <= i < |s.actions| ==> s.actions[i].leadId in LeadIds(s.leads))
    && (forall i :: 0 <= i < |s.actions| && s.actions[i].offerId.Some? ==>
          s.actions[i].offerId.value in OfferIds(s.offers))
  }

  /** The empty database satisfies the invariants. */
  lemma EmptyValid(nextId: nat, clock: nat)
    ensures Valid(Store([], [], [], nextId, clock))
  {
  }

  /** Rewriting offers in place without touching their identifiers keeps the
      database invariants. */
  lemma ValidWithOffers(s: Store, offers: seq<Offer>)
    requires Valid(s)
    requires |offers| == |s.offers|
    requires forall k :: 0 <= k < |offers| ==> offers[k].offerId == s.offers[k].offerId
    ensures Valid(s.(offers := offers))
  {
    assert OfferIds(offers) == OfferIds(s.offers) by {
      forall id | id in OfferIds(s.offers) ensures id in OfferIds(offers) {
        var k :| 0 <= k < |s.offers| && s.offers[k].offerId == id;
        assert offers[k] in offers;
      }
      forall id | id in OfferIds(offers) ensures id in OfferIds(s.offers) {
        var k :| 0 <= k < |offers| && offers[k].offerId == id;
        assert s.offers[k] in s.offers;
      }
    }
  }

  /** Appending an offer under the next identifier keeps the database
      invariants. */
  lemma ValidWithNewOffer(s: Store, o: Offer)
    requires Valid(s)
    requires o.offerId == s.nextId
    ensures Valid(s.(offers := s.offers + [o], nextId := s.nextId + 1))
  {
    assert OfferIds(s.offers) <= OfferIds(s.offers + [o]);
  }
}

=== FILE: offers.dfy ===
/** The public catalogue read (GET `/api/offers`). */
module Offers {
  import opened Common
  import opened Model
  import PositionOrder

  /** The fields a visitor may see: no activity flag, no counts. */
  datatype PublicOffer = PublicOffer(
    offerId: Id,
    title: string,
    description: string,
    savingsText: string,
    affiliateUrl: string,
    position: int)

  function Project(o: Offer): PublicOffer {
    PublicOffer(o.offerId, o.title, o.description, o.savingsText, o.affiliateUrl, o.position)
  }

  /** The active offers, in store order. */
  function ActiveOnly(offers: seq<Offer>): (r: seq<Offer>)
    ensures forall o :: o in r <==> o in offers && o.isActive
    ensures |r| <= |offers|
  {
    if |offers| == 0 then []
    else if offers[0].isActive then [offers[0]] + ActiveOnly(offers[1..])
    else ActiveOnly(offers[1..])
  }

  function ProjectAll(s: seq<Offer>): (r: seq<PublicOffer>)
    ensures |r| == |s|
    ensures forall i :: 0 <= i < |r| ==> r[i] == Project(s[i])
  {
    seq(|s|, i requires 0 <= i < |s| => Project(s[i]))
  }

  /** Projecting a rearrangement of the active offers shows each active offer
      and nothing else. */
  lemma ProjectedActive(sorted: seq<Offer>, offers: seq<Offer>)
    requires multiset(sorted) == multiset(ActiveOnly(offers))
    ensures var data := ProjectAll(sorted);
            && (forall i :: 0 <= i < |data| ==> exists o :: o in offers && o.isActive && data[i] == Project(o))
            && (forall o :: o in offers && o.isActive ==> Project(o) in data)
  {
    var data := ProjectAll(sorted);
    forall i | 0 <= i < |data|
      ensures exists o :: o in offers && o.isActive && data[i] == Project(o)
    {
      assert sorted[i] in multiset(sorted);
      assert sorted[i] in ActiveOnly(offers);
    }
    forall o | o in offers && o.isActive
      ensures Project(o) in data
    {
      assert o in multiset(ActiveOnly(offers));
      assert o in sorted;
      var k :| 0 <= k < |sorted| && sorted[k] == o;
      assert data[k] == Project(o);
    }
  }

  /** The GET success body. */
  datatype OfferList = OfferList(data: seq<PublicOffer>, count: nat)

  /** GET `/api/offers`: exactly the active offers, ordered by non-decreasing
      position, each cut down to its public fields. */
  function ListActive(s: Store): (r: Reply<OfferList>)
    ensures r.Ok?
    ensures r.data.count == |r.data.data| == |ActiveOnly(s.offers)|
    ensures forall i :: 0 <= i < |r.data.data| ==>
              exists o :: o in s.offers && o.isActive && r.data.data[i] == Project(o)
    ensures forall o :: o in s.offers && o.isActive ==> Project(o) in r.data.data
    ensures forall i, j :: 0 <= i < j < |r.data.data| ==> r.data.data[i].position <= r.data.data[j].position
  {
    var sorted := PositionOrder.SortByPosition(ActiveOnly(s.offers));
    ProjectedActive(sorted, s.offers);
    var data := ProjectAll(sorted);
    Ok(OfferList(data, |data|))
  }
}

=== FILE: position_order.dfy ===
/** Ordering offers by position, as the catalogue queries' `orderBy position
    asc` does. The order among offers with equal positions is unspecified,
    and nothing here depends on it. */
module PositionOrder {
  import opened Model

  predicate ByPosition(s: seq<Offer>) {
    forall i, j :: 0 <= i < j < |s| ==> s[i].position <= s[j].position
  }

  /** In a position-ordered list the head is at or below everything after it. */
  lemma HeadLowest(s: seq<Offer>)
    requires ByPosition(s) && |s| > 0
    ensures forall x :: x in s[1..] ==> s[0].position <= x.position
  {
    forall x | x in s[1..]
      ensures s[0].position <= x.position
    {
      var k :| 0 <= k < |s| - 1 && s[1..][k] == x;
      assert s[k + 1] == x;
    }
  }

  /** An offer at or below every element of an ordered list can go in front. */
  lemma ConsOrdered(h: Offer, t: seq<Offer>)
    requires ByPosition(t)
    requires forall x :: x in t ==> h.position <= x.position
    ensures ByPosition([h] + t)
  {
    var r := [h] + t;
    forall i, j | 0 <= i < j < |r|
      ensures r[i].position <= r[j].position
    {
      assert r[j] == t[j - 1];
      if i == 0 {
        assert t[j - 1] in t;
      } else {
        assert r[i] == t[i - 1];
      }
    }
  }

  function Insert(o: Offer, s: seq<Offer>): (r: seq<Offer>)
    requires ByPosition(s)
    ensures ByPosition(r)
    ensures multiset(r) == multiset(s) + multiset{o}
    ensures forall x :: x in r ==> x == o || x in s
  {
    if |s| == 0 then [o]
    else
      HeadLowest(s);
      assert s == [s[0]] + s[1..];
      if o.position < s[0].position then
        ConsOrdered(o, s);
        [o] + s
      else
        var rest := Insert(o, s[1..]);
        ConsOrdered(s[0], rest);
        [s[0]] + rest
  }

  /** A permutation of the offers, ordered by non-decreasing position. */
  function SortByPosition(s: seq<Offer>): (r: seq<Offer>)
    ensures ByPosition(r)
    ensures multiset(r) == multiset(s)
    ensures |r| == |s|
  {
    if |s| == 0 then []
    else
      assert s == [s[0]] + s[1..];
      Insert(s[0], SortByPosition(s[1..]))
  }
}

=== FILE: progress.dfy ===
/** The progress bar (`ProgressChain`): up to ten numbered circles, each
    completed, active or pending, joined by connectors, with an ellipsis when
    the chain is longer than ten. */
module Progress {
  import opened Common

  const MaxShown: int := 10
  const DefaultTotal: int := 10

  datatype Label = Check | Number(n: int)

  /** The connector after a circle: done, leaving the active step, or pending. */
  datatype Connector = DoneLine | ActiveLine | PendingLine

  datatype Circle = Circle(number: int, active: bool, completed: bool, mark: Label, connector: Option<Connector>)

  /** `Math.min(totalSteps, 10)` as an array length (a negative length is 0);
      an undefined total defaults to 10. */
  function Shown(totalSteps: Option<int>): (n: nat)
    ensures n <= MaxShown && n <= DefaultTotal
    ensures totalSteps.None? ==> n == DefaultTotal
    ensures totalSteps.Some? && 0 <= totalSteps.value <= MaxShown ==> n == totalSteps.value
    ensures totalSteps.Some? && totalSteps.value >= MaxShown ==> n == MaxShown
    ensures totalSteps.Some? && totalSteps.value <= 0 ==> n == 0
  {
    var t := totalSteps.GetOr(DefaultTotal);
    var m := if t < MaxShown then t else MaxShown;
    if m < 0 then 0 else m
  }

  function CircleAt(number: int, currentStep: int, shown: int): Circle {
    var completed := number < currentStep;
    Circle(number, number == currentStep, completed,
           if completed then Check else Number(number),
           if number < shown then
             Some(if number < currentStep then DoneLine
                  else if number == currentStep then ActiveLine
                  else PendingLine)
           else None)
  }

  /** The circles, left to right. */
  function Circles(currentStep: int, totalSteps: Option<int>): (cs: seq<Circle>)
    ensures |cs| == Shown(totalSteps)
    ensures forall i :: 0 <= i < |cs| ==> cs[i].number == i + 1
    ensures forall i :: 0 <= i < |cs| ==> (cs[i].active <==> i + 1 == currentStep)
    ensures forall i :: 0 <= i < |cs| ==> (cs[i].completed <==> i + 1 < currentStep)
    ensures forall i :: 0 <= i < |cs| ==> (cs[i].mark == Check <==> cs[i].completed)
    ensures forall i :: 0 <= i < |cs| && !cs[i].completed ==> cs[i].mark == Number(i + 1)
    ensures forall i :: 0 <= i < |cs| ==> (cs[i].connector.Some? <==> i + 1 < |cs|)
    ensures forall i :: 0 <= i < |cs| && cs[i].connector.Some? ==>
              (cs[i].connector.value == DoneLine <==> cs[i].completed) &&
              (cs[i].connector.value == ActiveLine <==> cs[i].active)
  {
    var n := Shown(totalSteps);
    seq(n, i requires 0 <= i < n => CircleAt(i + 1, currentStep, n))
  }

  /** `totalSteps > 10`. */
  function ShowEllipsis(totalSteps: Option<int>): (e: bool)
    ensures e <==> totalSteps.GetOr(DefaultTotal) > MaxShown
    ensures e ==> Shown(totalSteps) == MaxShown
  {
    totalSteps.Some? && totalSteps.value > MaxShown
  }

  /** At most one circle is active, and no circle is both active and completed. */
  lemma AtMostOneActive(currentStep: int, totalSteps: Option<int>)
    ensures var cs := Circles(currentStep, totalSteps);
            && (forall i, j :: 0 <= i < |cs| && 0 <= j < |cs| && cs[i].active && cs[j].active ==> i == j)
            && (forall i :: 0 <= i < |cs| ==> !(cs[i].active && cs[i].completed))
  {
  }

  /** Past the tenth step every circle shown is completed and none is active. */
  lemma BeyondShownAllCompleted(currentStep: int, totalSteps: Option<int>)
    requires currentStep > MaxShown
    ensures var cs := Circles(currentStep, totalSteps);
            forall i :: 0 <= i < |cs| ==> cs[i].completed && !cs[i].active && cs[i].mark == Check
  {
  }

  function ConnectorCount(cs: seq<Circle>): nat {
    if |cs| == 0 then 0
    else ConnectorCount(cs[..|cs| - 1]) + (if cs[|cs| - 1].connector.Some? then 1 else 0)
  }

  /** One connector fewer than circles: every circle but the last has one. */
  lemma {:induction false} ConnectorsBetween(cs: seq<Circle>)
    requires forall i :: 0 <= i < |cs| ==> (cs[i].connector.Some? <==> i + 1 < |cs|)
    ensures ConnectorCount(cs) == if |cs| == 0 then 0 else |cs| - 1
  {
    if |cs| > 0 {
      var init := cs[..|cs| - 1];
      assert forall i :: 0 <= i < |init| ==> init[i].connector.Some?;
      AllConnected(init);
    }
  }

  lemma {:induction false} AllConnected(cs: seq<Circle>)
    requires forall i :: 0 <= i < |cs| ==> cs[i].connector.Some?
    ensures ConnectorCount(cs) == |cs|
  {
    if |cs| > 0 {
      AllConnected(cs[..|cs| - 1]);
    }
  }

  lemma CircleConnectors(currentStep: int, totalSteps: Option<int>)
    ensures var n := Shown(totalSteps);
            ConnectorCount(Circles(currentStep, totalSteps)) == if n == 0 then 0 else n - 1
  {
    ConnectorsBetween(Circles(currentStep, totalSteps));
  }
}

=== FILE: reorder.dfy ===
/** Catalogue reordering (PUT `/api/admin/offers/reorder`): the listed offers
    get positions 1, 2, ... in list order, in one all-or-nothing transaction. */
module Reorder {
  import opened Common
  import opened Model
  import Auth

  const NotArrayMessage: string := "offerIds must be a non-empty array"
  const FailedMessage: string := "Failed to reorder offers"
  const DoneMessage: string := "Offers reordered successfully"

  /** The success body: the offers as each update left them, and a message. */
  datatype Reordered = Reordered(data: seq<Offer>, message: string)

  /** One update of the transaction: the offer with that identifier moves to
      position `p`; nothing else changes. */
  function SetPosition(offers: seq<Offer>, id: Id, p: int): (r: seq<Offer>)
    ensures |r| == |offers|
    ensures forall k :: 0 <= k < |r| ==>
              r[k] == if offers[k].offerId == id then offers[k].(position := p) else offers[k]
  {
    seq(|offers|, k requires 0 <= k < |offers| =>
      if offers[k].offerId == id then offers[k].(position := p) else offers[k])
  }

  /** The transaction's updates applied in list order: the i-th identifier
      gets position i + 1. */
  function ApplyAll(offers: seq<Offer>, ids: seq<Id>): (r: seq<Offer>)
    ensures |r| == |offers|
    decreases |ids|
  {
    if |ids| == 0 then offers
    else SetPosition(ApplyAll(offers, ids[..|ids| - 1]), ids[|ids| - 1], |ids|)
  }

  /** The last place an identifier occurs in the list. */
  function LastIndex(ids: seq<Id>, id: Id): (k: nat)
    requires id in ids
    ensures k < |ids| && ids[k] == id
    ensures forall j :: k < j < |ids| ==> ids[j] != id
  {
    if ids[|ids| - 1] == id then |ids| - 1
    else
      assert id in ids[..|ids| - 1] by {
        var j :| 0 <= j < |ids| && ids[j] == id;
        assert ids[..|ids| - 1][j] == id;
      }
      LastIndex(ids[..|ids| - 1], id)
  }

  /** Where an offer ends up: one past the last place it is listed, or where
      it was when it is not listed. */
  function FinalPosition(o: Offer, ids: seq<Id>): int {
    if o.offerId in ids then LastIndex(ids, o.offerId) + 1 else o.position
  }

  /** The sequential updates agree with the closed form: listed offers take
      their last listed place, unlisted ones keep their position, and no other
      field changes. */
  lemma {:induction false} ApplyAllFinal(offers: seq<Offer>, ids: seq<Id>)
    ensures forall k :: 0 <= k < |offers| ==>
              ApplyAll(offers, ids)[k] == offers[k].(position := FinalPosition(offers[k], ids))
    decreases |ids|
  {
    if |ids| > 0 {
      var init := ids[..|ids| - 1];
      var id := ids[|ids| - 1];
      ApplyAllFinal(offers, init);
      forall k | 0 <= k < |offers|
        ensures ApplyAll(offers, ids)[k] == offers[k].(position := FinalPosition(offers[k], ids))
      {
        var o := offers[k];
        assert ids == init + [id];
        if o.offerId == id {
          assert LastIndex(ids, id) == |ids| - 1;
        } else if o.offerId in init {
          assert o.offerId in ids;
          assert LastIndex(ids, o.offerId) == LastIndex(init, o.offerId);
        } else {
          assert o.offerId !in ids;
        }
      }
    }
  }

  /** With no repeated identifier, the i-th listed offer gets position i + 1. */
  lemma DistinctPositions(offers: seq<Offer>, ids: seq<Id>, i: nat, k: nat)
    requires forall a, b :: 0 <= a < b < |ids| ==> ids[a] != ids[b]
    requires i < |ids| && k < |offers| && offers[k].offerId == ids[i]
    ensures ApplyAll(offers, ids)[k].position == i + 1
  {
    ApplyAllFinal(offers, ids);
    assert LastIndex(ids, ids[i]) == i;
  }

  /** The transaction behind the gate: 400 unless the body's `offerIds` is a
      non-empty array (`None` stands for anything that is not an array); 500
      with no change at all when any listed identifier names no offer;
      otherwise every update is applied and the reply lists each updated
      offer in list order. */
  function ReorderChecked(s: Store, offerIds: Option<seq<Id>>): (out: Handled<Reordered>)
    ensures out.reply.Fail? ==> out.store == s
    ensures offerIds.None? || |offerIds.value| == 0 ==> out.reply == Fail(StatusBadRequest, NotArrayMessage)
    ensures offerIds.Some? && |offerIds.value| > 0 ==>
              && (out.reply.Ok? <==> forall i :: 0 <= i < |offerIds.value| ==> offerIds.value[i] in OfferIds(s.offers))
              && (out.reply.Fail? ==> out.reply == Fail(StatusServerError, FailedMessage))
    ensures out.reply.Ok? ==>
              && offerIds.Some?
              && out.store == s.(offers := out.store.offers)
              && |out.store.offers| == |s.offers|
              && (forall k :: 0 <= k < |s.offers| ==>
                    out.store.offers[k] == s.offers[k].(position := FinalPosition(s.offers[k], offerIds.value)))
              && |out.reply.data.data| == |offerIds.value|
              && (forall i :: 0 <= i < |offerIds.value| ==>
                    && out.reply.data.data[i].offerId == offerIds.value[i]
                    && out.reply.data.data[i].position == i + 1
                    && out.reply.data.data[i] == FindOffer(s.offers, offerIds.value[i]).value.(position := i + 1))
  {
    if offerIds.None? || |offerIds.value| == 0 then
      Handled(s, Fail(StatusBadRequest, NotArrayMessage))
    else
      var ids := offerIds.value;
      if exists i :: 0 <= i < |ids| && ids[i] !in OfferIds(s.offers) then
        Handled(s, Fail(StatusServerError, FailedMessage))
      else
        var offers' := ApplyAll(s.offers, ids);
        ApplyAllFinal(s.offers, ids);
        var data := seq(|ids|, i requires 0 <= i < |ids| => FindOffer(s.offers, ids[i]).value.(position := i + 1));
        Handled(s.(offers := offers'), Ok(Reordered(data, DoneMessage)))
  }

  /** PUT: refused by the gate before any store access, else the transaction. */
  function ReorderOffers(s: Store, authorization: Option<string>, env: Auth.Env, codec: Auth.Codec,
                         offerIds: Option<seq<Id>>): (out: Handled<Reordered>)
    ensures var denial := Auth.CheckAdminAuth(authorization, env, codec);
            denial.Some? ==> out == Handled(s, Fail(denial.value.status, denial.value.error))
    ensures Auth.CheckAdminAuth(authorization, env, codec).None? ==> out == ReorderChecked(s, offerIds)
  {
    match Auth.CheckAdminAuth(authorization, env, codec)
    case Some(denial) => Handled(s, Fail(denial.status, denial.error))
    case None => ReorderChecked(s, offerIds)
  }

  /** Reordering keeps the database invariants. */
  lemma ReorderValid(s: Store, offerIds: Option<seq<Id>>)
    requires Valid(s)
    ensures Valid(ReorderChecked(s, offerIds).store)
  {
    var out := ReorderChecked(s, offerIds);
    if out.reply.Ok? {
      ValidWithOffers(s, out.store.offers);
    }
  }

  /** With no repeated identifier and every identifier known, the reorder
      leaves the i-th listed offer at position i + 1. */
  lemma ReorderListedPositions(s: Store, ids: seq<Id>, i: nat, k: nat)
    requires forall a, b :: 0 <= a < b < |ids| ==> ids[a] != ids[b]
    requires |ids| > 0 && forall j :: 0 <= j < |ids| ==> ids[j] in OfferIds(s.offers)
    requires i < |ids| && k < |s.offers| && s.offers[k].offerId == ids[i]
    ensures ReorderChecked(s, Some(ids)).store.offers[k].position == i + 1
  {
    assert LastIndex(ids, ids[i]) == i;
  }

  /** When every listed identifier is known, an offer left out of the list
      keeps its position, and every offer keeps all its other fields. */
  lemma ReorderUnlistedUnchanged(s: Store, ids: seq<Id>, k: nat)
    requires |ids| > 0 && forall j :: 0 <= j < |ids| ==> ids[j] in OfferIds(s.offers)
    requires k < |s.offers|
    ensures var o := ReorderChecked(s, Some(ids)).store.offers[k];
            && o.offerId == s.offers[k].offerId && o.title == s.offers[k].title
            && o.description == s.offers[k].description && o.savingsText == s.offers[k].savingsText
            && o.affiliateUrl == s.offers[k].affiliateUrl && o.isActive == s.offers[k].isActive
            && (s.offers[k].offerId !in ids ==> o.position == s.offers[k].position)
  {
  }
}

=== FILE: session.dfy ===
/** The visitor session hook (`useUserSession`): session start-up and the
    `trackAction` helper that sends telemetry to the ledger. */
module Session {
  import opened Common
  import opened Model
  import Actions

  /** The hook's four pieces of state. */
  datatype SessionState = SessionState(
    leadId: Option<Id>,
    sessionId: Option<string>,
    loading: bool,
    error: Option<string>)

  const Initial: SessionState := SessionState(None, None, true, None)

  /** `initializeSession`: a fresh session identifier (its generation from
      the clock and a random number is outside the model), then the outcome
      of `getOrCreateLead`. Loading ends on both paths; a failure records its
      message and leaves no lead. */
  function InitializeSession(st: SessionState, newSessionId: string, lead: Fetch<Id>): (r: SessionState)
    ensures !r.loading
    ensures r.sessionId == Some(newSessionId)
    ensures lead.Fetched? ==> r.leadId == Some(lead.body) && r.error == st.error
    ensures lead.Threw? ==> r.error == Some(lead.message) && r.leadId == st.leadId
  {
    var started := st.(loading := true, sessionId := Some(newSessionId));
    match lead
    case Fetched(id) => started.(leadId := Some(id), loading := false)
    case Threw(message) => started.(error := Some(message), loading := false)
  }

  /** The browser facts `trackAction` copies into metadata. */
  datatype Browser = Browser(timestamp: string, userAgent: string, url: string, referrer: string)

  /** The metadata keys `trackAction` writes, overriding the caller's. */
  const EnrichedKeys: set<string> := {"sessionId", "timestamp", "userAgent", "url", "referrer"}

  function SessionValue(sessionId: Option<string>): MetaValue {
    if sessionId.Some? then MStr(sessionId.value) else MNull
  }

  /** `{...metadata, sessionId, timestamp, userAgent, url, referrer}`. */
  function Enrich(metadata: Meta, sessionId: Option<string>, b: Browser): (m: Meta)
    ensures m.Keys == metadata.Keys + EnrichedKeys
    ensures forall k :: k in metadata && k !in EnrichedKeys ==> m[k] == metadata[k]
    ensures m["sessionId"] == SessionValue(sessionId)
    ensures m["timestamp"] == MStr(b.timestamp) && m["userAgent"] == MStr(b.userAgent)
    ensures m["url"] == MStr(b.url) && m["referrer"] == MStr(b.referrer)
  {
    metadata + map[
      "sessionId" := SessionValue(sessionId),
      "timestamp" := MStr(b.timestamp),
      "userAgent" := MStr(b.userAgent),
      "url" := MStr(b.url),
      "referrer" := MStr(b.referrer)]
  }

  /** The arguments of one `logAction` call. */
  datatype LogCall = LogCall(
    leadId: Id,
    actionType: string,
    offerId: Option<Id>,
    offerPosition: Option<int>,
    metadata: Meta)

  /** What `trackAction` did: the `logAction` call it made, if any, and the
      value its promise resolves to. */
  datatype Tracked = Tracked(call: Option<LogCall>, result: Option<Actions.ActionReceipt>)

  /** `trackAction`: without a lead it makes no call; otherwise it passes its
      arguments through unchanged with enriched metadata. A failed call is
      caught, so the promise resolves (to nothing) either way. */
  function TrackAction(st: SessionState, b: Browser, actionType: string, offerId: Option<Id>,
                       offerPosition: Option<int>, metadata: Meta,
                       outcome: Fetch<Actions.ActionReceipt>): (t: Tracked)
    ensures t.call.Some? <==> st.leadId.Some?
    ensures t.call.Some? ==>
              && t.call.value.leadId == st.leadId.value
              && t.call.value.actionType == actionType
              && t.call.value.offerId == offerId
              && t.call.value.offerPosition == offerPosition
              && t.call.value.metadata == Enrich(metadata, st.sessionId, b)
    ensures t.result.Some? <==> t.call.Some? && outcome.Fetched?
    ensures t.result.Some? ==> t.result.value == outcome.body
  {
    if st.leadId.None? then Tracked(None, None)
    else
      var call := LogCall(st.leadId.value, actionType, offerId, offerPosition,
                          Enrich(metadata, st.sessionId, b));
      match outcome
      case Fetched(receipt) => Tracked(Some(call), Some(receipt))
      case Threw(_) => Tracked(Some(call), None)
  }

  /** The request body `logAction` posts: it has no top-level `sessionId`. */
  function ToRequest(call: LogCall): (req: Actions.ActionRequest)
    ensures req.sessionId.None?
    ensures req.leadId == Some(call.leadId) && req.actionType == Some(call.actionType)
    ensures req.metadata == Some(call.metadata)
  {
    Actions.ActionRequest(Some(call.leadId), Some(call.actionType), None,
                          call.offerId, call.offerPosition, Some(call.metadata))
  }

  /** The client's view of the POST: the receipt, or the thrown error. */
  function Deliver(s: Store, call: LogCall): (r: (Store, Fetch<Actions.ActionReceipt>))
    ensures r.0 == Actions.PostAction(s, ToRequest(call)).store
    ensures r.1.Fetched? <==> Actions.PostAction(s, ToRequest(call)).reply.Ok?
  {
    var out := Actions.PostAction(s, ToRequest(call));
    match out.reply
    case Ok(receipt) => (out.store, Fetched(receipt))
    case Fail(_, error) => (out.store, Threw(error))
  }

  /** The session identifier travels only inside metadata: an action logged
      through `trackAction` has a null `sessionId` column, and its metadata
      carries the session. */
  lemma SessionOnlyInMetadata(s: Store, st: SessionState, b: Browser, actionType: string,
                              offerId: Option<Id>, offerPosition: Option<int>, metadata: Meta,
                              outcome: Fetch<Actions.ActionReceipt>)
    requires st.leadId.Some?
    ensures var t := TrackAction(st, b, actionType, offerId, offerPosition, metadata, outcome);
            var out := Actions.PostAction(s, ToRequest(t.call.value));
            out.reply.Ok? ==>
              && out.store.actions[|s.actions|].sessionId.None?
              && out.store.actions[|s.actions|].metadata.Some?
              && out.store.actions[|s.actions|].metadata.value["sessionId"] == SessionValue(st.sessionId)
  {
  }
}

=== FILE: text.dfy ===
/** The JavaScript string operations the core relies on: `split` on a single
    character and `trim`. */
module Text {

  /** Position of the first occurrence of `c` in `s`. */
  function IndexOf(s: string, c: char): (i: nat)
    requires c in s
    ensures i < |s| && s[i] == c
    ensures c !in s[..i]
  {
    if s[0] == c then 0
    else
      var j := IndexOf(s[1..], c);
      assert s[..j + 1] == [s[0]] + s[1..][..j];
      j + 1
  }

  /** The first occurrence is the only one with no earlier occurrence. */
  lemma IndexOfUnique(s: string, c: char, k: nat)
    requires k < |s| && s[k] == c && c !in s[..k]
    ensures IndexOf(s, c) == k
  {
  }

  /** Inverse of `Split`: the pieces glued back with the separator between them. */
  function Join(parts: seq<string>, sep: char): string
  {
    if |parts| == 0 then ""
    else if |parts| == 1 then parts[0]
    else parts[0] + [sep] + Join(parts[1..], sep)
  }

  /** `s.split(sep)` for a one-character separator: the maximal separator-free
      pieces, left to right; an empty string yields one empty piece. */
  function Split(s: string, sep: char): (parts: seq<string>)
    ensures |parts| >= 1
    ensures forall i :: 0 <= i < |parts| ==> sep !in parts[i]
    ensures Join(parts, sep) == s
    decreases |s|
  {
    if sep !in s then [s]
    else
      var i := IndexOf(s, sep);
      var rest := Split(s[i + 1..], sep);
      assert ([s[..i]] + rest)[1..] == rest;
      assert s == s[..i] + [sep] + s[i + 1..];
      [s[..i]] + rest
  }

  /** The first piece is the text before the first separator, and the pieces
      after it are the split of what follows that separator. */
  lemma SplitHead(s: string, sep: char)
    ensures sep !in s ==> Split(s, sep) == [s]
    ensures sep in s ==>
              && Split(s, sep)[0] == s[..IndexOf(s, sep)]
              && Split(s, sep)[1..] == Split(s[IndexOf(s, sep) + 1..], sep)
  {
  }

  /** Splitting what `Join` built gives back the pieces, so long as no piece
      holds the separator. */
  lemma {:induction false} SplitJoin(parts: seq<string>, sep: char)
    requires |parts| >= 1
    requires forall i :: 0 <= i < |parts| ==> sep !in parts[i]
    ensures Split(Join(parts, sep), sep) == parts
    decreases |parts|
  {
    if |parts| > 1 {
      var tail := Join(parts[1..], sep);
      assert Join(parts, sep) == parts[0] + [sep] + tail;
      SplitFirst(parts[0], sep, tail);
      SplitJoin(parts[1..], sep);
      var r := Split(Join(parts, sep), sep);
      assert r == [r[0]] + r[1..];
    }
  }

  /** The first piece of a split is the text before the first separator. */
  lemma SplitFirst(a: string, sep: char, rest: string)
    requires sep !in a
    ensures Split(a + [sep] + rest, sep)[0] == a
    ensures Split(a + [sep] + rest, sep)[1..] == Split(rest, sep)
  {
    var s := a + [sep] + rest;
    assert s[|a|] == sep;
    assert s[..|a|] == a;
    IndexOfUnique(s, sep, |a|);
    assert s[|a| + 1..] == rest;
  }

  /** The characters `String.prototype.trim` removes: ECMAScript WhiteSpace
      and LineTerminator code points. */
  predicate IsJsSpace(c: char) {
    || ('\U{9}' <= c <= '\U{D}')
    || c == '\U{20}' || c == '\U{A0}' || c == '\U{1680}'
    || ('\U{2000}' <= c <= '\U{200A}')
    || c == '\U{2028}' || c == '\U{2029}' || c == '\U{202F}' || c == '\U{205F}'
    || c == '\U{3000}' || c == '\U{FEFF}'
  }

  predicate AllSpace(s: string) {
    forall k :: 0 <= k < |s| ==> IsJsSpace(s[k])
  }

  /** A string with no trimmable character at either end. */
  predicate Trimmed(s: string) {
    |s| > 0 ==> !IsJsSpace(s[0]) && !IsJsSpace(s[|s| - 1])
  }

  function TrimStart(s: string): (r: string)
    ensures |r| <= |s| && r == s[|s| - |r|..]
    ensures AllSpace(s[..|s| - |r|])
    ensures |r| > 0 ==> !IsJsSpace(r[0])
  {
    if |s| > 0 && IsJsSpace(s[0]) then
      var r := TrimStart(s[1..]);
      var pad := s[..|s| - |r|];
      assert forall k :: 1 <= k < |pad| ==> pad[k] == s[1..][..|s| - 1 - |r|][k - 1];
      r
    else s
  }

  function TrimEnd(s: string): (r: string)
    ensures |r| <= |s| && r == s[..|r|]
    ensures AllSpace(s[|r|..])
    ensures |r| > 0 ==> !IsJsSpace(r[|r| - 1])
  {
    if |s| > 0 && IsJsSpace(s[|s| - 1]) then
      var r := TrimEnd(s[..|s| - 1]);
      assert s[|r|..] == s[..|s| - 1][|r|..] + [s[|s| - 1]];
      r
    else s
  }

  /** Stripping a white-space prefix and then a white-space suffix leaves a
      trimmed slice of `s` with only white space around it. */
  lemma StripBoth(s: string, a: string, r: string)
    requires |a| <= |s| && a == s[|s| - |a|..] && AllSpace(s[..|s| - |a|])
    requires |a| > 0 ==> !IsJsSpace(a[0])
    requires |r| <= |a| && r == a[..|r|] && AllSpace(a[|r|..])
    requires |r| > 0 ==> !IsJsSpace(r[|r| - 1])
    ensures Trimmed(r)
    ensures exists pre, post :: s == pre + r + post && AllSpace(pre) && AllSpace(post)
  {
    var lo := |s| - |a|;
    var pre, post := s[..lo], a[|r|..];
    assert s == pre + r + post;
    if |r| > 0 {
      assert r[0] == a[0];
    }
  }

  /** `s.trim()`: `s` is some spaces, then the result, then some spaces, and
      the result neither starts nor ends with a space. */
  function Trim(s: string): (r: string)
    ensures Trimmed(r)
    ensures exists pre, post :: s == pre + r + post && AllSpace(pre) && AllSpace(post)
  {
    var a := TrimStart(s);
    var r := TrimEnd(a);
    StripBoth(s, a, r);
    r
  }

  /** Trimming is exact: for any padding of a trimmed string, `Trim` recovers
      that string. */
  lemma {:induction false} TrimPadded(pre: string, t: string, post: string)
    requires AllSpace(pre) && AllSpace(post) && Trimmed(t)
    ensures Trim(pre + t + post) == t
  {
    if |t| == 0 {
      assert pre + t + post == (pre + post) + "";
      TrimStartPadded(pre + post, "");
    } else {
      assert pre + t + post == pre + (t + post);
      TrimStartPadded(pre, t + post);
      TrimEndPadded(t, post);
    }
  }

  lemma {:induction false} TrimStartPadded(pre: string, u: string)
    requires AllSpace(pre)
    requires |u| > 0 ==> !IsJsSpace(u[0])
    ensures TrimStart(pre + u) == u
    decreases |pre|
  {
    if |pre| > 0 {
      assert (pre + u)[1..] == pre[1..] + u;
      TrimStartPadded(pre[1..], u);
    } else {
      assert pre + u == u;
    }
  }

  lemma {:induction false} TrimEndPadded(t: string, post: string)
    requires AllSpace(post)
    requires |t| > 0 ==> !IsJsSpace(t[|t| - 1])
    ensures TrimEnd(t + post) == t
    decreases |post|
  {
    if |post| > 0 {
      assert (t + post)[..|t + post| - 1] == t + post[..|post| - 1];
      TrimEndPadded(t, post[..|post| - 1]);
    } else {
      assert t + post == t;
    }
  }

  /** A trimmed string is its own trim. */
  lemma TrimOfTrimmed(t: string)
    requires Trimmed(t)
    ensures Trim(t) == t
  {
    assert "" + t == t;
    TrimStartPadded("", t);
    assert t + "" == t;
    TrimEndPadded(t, "");
  }

  /** Trimming twice is trimming once. */
  lemma TrimIdempotent(s: string)
    ensures Trim(Trim(s)) == Trim(s)
  {
    TrimOfTrimmed(Trim(s));
  }
}
